=== FILE: README.md ===
# Fuzzy matching and deduplication core of the SeSTA database cleaner

This project models, in Dafny, the part of the cleaner that normalises one noisy
free-text column of a table (a village-organisation or self-help-group name)
and then removes duplicate records:

- **Levenshtein edit distance** (`levenshtein`): a recursive definition of the
  dynamic-programming table, `PrefixDistance`, and the imperative table fill,
  `Levenshtein.Compute`, proved to return the bottom-right cell. Bounds,
  symmetry, "zero exactly on equal strings" and the "kitten"/"sitting" example
  are proved about the definition.
- **"No"-variant normalisation** (the loop in `load_data`): a target cell
  becomes missing when it is not text, or when its ASCII-lower-cased text is
  within edit distance 2 of `"no"`.
- **Reference list** (`references_list` and the wildcard filter in `main`):
  the candidate list holds the distinct values occurring more than the frequency
  threshold, in first-seen order. A single pass over the pairs `(i, j)`,
  `i < j`, by ascending `j` then ascending `i`, overwrites the less frequent
  slot of a close pair with the wildcard. The wildcard is `None` in a
  `seq<Option<string>>`. The pass follows the code as written, stop-word
  branches included.
- **Autocorrection** (`autocorrect` and the `fillna("no")` in `main`): every
  present value is compared with each reference in turn, with no early exit.
  Later references are compared with the already rewritten value, so the result
  is the last reference in a cascade of matches.
- **Deduplication** (`remove_duplicates`): a scan keeping `(index, key)`
  items, where the key is the two identity columns plus the target column. A
  kept item is replaced only by a row with strictly fewer absent cells, and the
  replacement goes to the end of the list.
- **The run** (`main`, without the file I/O): all of the above, in order.

Modules: `Wrappers` (Option), `Text` (ASCII lower-casing, last-space split,
occurrence count), `Levenshtein`, `Table` (cells, rows, keys, null count),
`MissingValues`, `References`, `Autocorrect`, `Dedup` and `Cleaner`.

The thresholds are parameters (`Cleaner.Thresholds`). The program ships with
frequency 2, reference distance 3 and edit distance 4 (matching_utils.py:5-7),
which is `Cleaner.Shipped`. `Cleaner.SeparatedReferenceRewritten` and the
candidate example use these values. The other examples state their own
thresholds; `Autocorrect.ReferenceRewrittenByLaterReference` uses edit distance
1. The stop words are a `set<string>` parameter.

## Behaviour worth knowing

- Reference reduction, stop-word branches (matching_utils.py:89-94). When a pair
  is not within the reference distance but one name ends in a stop word, the
  code strips that word and then wildcards a slot without comparing distances
  again. The count comparison uses the stripped string's count, which is 0
  when the stripped form never occurs. `References.Visit` models this and
  `References.StopTailIgnoresDistance` shows the effect: with `"shg"` a stop
  word, "Jyoti SHG" is wildcarded against "Unity Group", whatever their
  distance.
- Reference reduction skips a pair as soon as one of its slots is already the
  wildcard (matching_utils.py:84). A slot wildcarded earlier in the pass
  therefore never removes a later one: `References.ChainKeepsFarEnd` shows
  that for `a`, `b`, `c` with `b` close to the more frequent `a` and `c` far
  from `a`, the pass keeps `c` however close `b` and `c` are.
- Autocorrection (matching_utils.py:107-113) has no `break`. A reference that
  matches replaces the value, and the next reference is compared with that
  replacement, so the last match in the cascade wins.
  `Autocorrect.LastMatchWins` characterises the result.
- For the same reason autocorrection is not idempotent on the reference set.
  `Autocorrect.ReferenceRewrittenByLaterReference` shows a reference rewritten
  to a later one. `Cleaner.SeparatedReferenceRewritten` shows that this hits
  references the reduction really returns: at the shipped thresholds, the
  pass over two references four edits apart keeps both, and the first is
  rewritten to the second.
- The fill label is fixed to `"no"` (matching_utils.py:153). It is
  `Cleaner.MissingLabel`.

## Model

| member | source | states |
|---|---|---|
| `Levenshtein.Compute` | levenshtein.py:4-23 | the table fill (row 0 and column 0 set to `0..len`, each other cell the minimum of deletion, insertion and substitution) returns exactly the recursive edit distance of the two whole strings |
| `Levenshtein.Bounds` | levenshtein.py:5-20 | the distance lies between the length difference and the longer length; against the empty string it is the other string's length |
| `Levenshtein.Symmetric` | levenshtein.py:12-20 | `distance(a, b) == distance(b, a)` for all strings |
| `Levenshtein.ZeroIffEqual` | levenshtein.py:14-20 | the distance is 0 exactly when the strings are equal; in particular `distance(s, s) == 0` |
| `Levenshtein.KittenSitting` | levenshtein.py:4-23 | `distance("kitten", "sitting") == 3` |
| `MissingValues.NormaliseColumn` | matching_utils.py:56-58 | an entry becomes missing exactly when it is not text or its lower-cased text is within 2 of "no"; every other entry keeps its text, and the length is unchanged |
| `MissingValues.ShortTextIsMissing` | matching_utils.py:57-58 | every text of at most two characters becomes missing |
| `MissingValues.LongTextIsKept` | matching_utils.py:57-58 | every text longer than four characters is kept as it is (e.g. "North Hamlet VO") |
| `MissingValues.NormaliseIdempotent` | matching_utils.py:56-58 | normalising an already normalised column changes nothing |
| `MissingValues.Examples` | matching_utils.py:56-58 | "No", "n0" and a number all become missing |
| `References.Present` | matching_utils.py:66 | the entries that are not missing, each string occurring exactly as often as in the column; the same function is the wildcard filter of line 148 |
| `References.CollectCandidatesSpec` | matching_utils.py:69-71 | after the first `n` values, the candidates occur more than the threshold, include every frequent value seen so far, and are in first-seen order |
| `References.Candidates` | matching_utils.py:69-71 | a string is a candidate exactly when it occurs more than the threshold; candidates are pairwise distinct and in first-seen order |
| `References.ExampleCandidates` | matching_utils.py:69-71 | three "Jyoti SHG", one "Joyti SHG" and three "Unity Group" with threshold 2 give the candidates "Jyoti SHG", "Unity Group" |
| `References.DistanceMatrix` | matching_utils.py:74-78 | every cell of the reference matrix is the edit distance of its pair of candidates |
| `References.Visit` | matching_utils.py:83-94 | one pair visit wildcards at most one of its two slots and never restores one. Within the reference distance the less frequent slot goes, and slot `j` on a tie. Beyond it, a stop-word tail on either name wildcards a slot by the stripped count. Otherwise nothing changes |
| `References.ClosePairKeepsFrequent` | matching_utils.py:87-88 | for a lone pair of close spellings without stop-word tails, the contract of `Reduce` leaves exactly the more frequent one |
| `References.StopTailIgnoresDistance` | matching_utils.py:89-91 | a stop-word tail wildcards a slot even when the pair is farther apart than the reference distance |
| `References.VisitStep` | matching_utils.py:81-94 | each visit keeps every slot its own candidate or the wildcard, keeps every wildcarded slot one that lost to another slot, keeps some slot live, and adds the visited pair to the separated pairs |
| `References.ChainKeepsFarEnd` | matching_utils.py:81-94 | with `b` close to the more frequent `a` and `c` far from `a`, no stop-word tails, the pass over `a`, `b`, `c` leaves exactly `a`, wildcard, `c`: the wildcarded `b` is not compared with `c` |
| `References.Reduce` | matching_utils.py:81-94 | the slots are exactly those of the pass visiting the pairs by ascending `j`, then ascending `i`, each against the slots the earlier visits left, with wildcarded pairs skipped. After the pass, any two live slots are farther apart than the reference distance and have no stop-word tail. Each wildcarded slot lost to another slot: one of the two had a stop-word tail, or they were within the distance and the other was more frequent, or as frequent and earlier. At least one slot stays live |
| `References.ReferencesList` | matching_utils.py:62-97 | the result is exactly the pass over the candidates of the present values: one slot per candidate holding that candidate or the wildcard, with the separation, justification and liveness of `Reduce` |
| `References.PresentPositionsSpec` | matching_utils.py:66 | the values that dropping missing entries keeps come from strictly increasing positions of the column, each holding its value, and every present entry is among them: the order is kept, repeated values included |
| `References.PresentKeepsOrder` | matching_utils.py:148 | any relation that holds between every earlier and later present entry holds between every earlier and later value of the result |
| `References.SurvivingReferences` | matching_utils.py:146-148 | the references are exactly the live slots of the pass over the candidates, wildcards dropped. Every reference is a candidate occurring more than the threshold. References are in first-seen order, hence distinct, and pairwise separated. Every candidate that is not a reference lost to another candidate, and there is a reference whenever there is a candidate |
| `Autocorrect.CorrectValue` | matching_utils.py:107-113 | a value is either left as it is or rewritten to exactly one of the references |
| `Autocorrect.CorrectValueSnoc` | matching_utils.py:107-113 | an extra last reference takes over exactly when it matches the value as rewritten by the earlier references |
| `Autocorrect.LastMatchWins` | matching_utils.py:107-113 | the result is the last reference that matched the value as it stood when tried, and the original value when none matched |
| `Autocorrect.NoMatchUnchanged` | matching_utils.py:107-113 | a value that no reference matches, raw or stop-word-stripped, case-insensitively, is unchanged |
| `Autocorrect.CorrectEntry` | matching_utils.py:103-113 | a missing entry stays missing; a present one is kept or becomes a reference, and is kept when nothing matches it |
| `Autocorrect.Autocorrect` | matching_utils.py:100-113 | the column keeps its length and its missing entries; each rewritten entry is exactly a reference's spelling; unmatched entries are unchanged |
| `Autocorrect.NoReferencesNoChange` | matching_utils.py:107 | an empty reference list changes nothing |
| `Autocorrect.ReferenceRewrittenByLaterReference` | matching_utils.py:107-113 | with references "x", "y" and threshold 1, the reference "x" is rewritten to "y" |
| `Autocorrect.FillMissing` | matching_utils.py:153 | every entry is either its own present text or, when missing, the label |
| `Autocorrect.FillMissingCounts` | matching_utils.py:153 | each string occurs in the filled column as often as it was present, and the label once more for every missing entry |
| `Dedup.FindKey` | matching_utils.py:122-123 | finds the first kept item with the row's key, or reports that there is none |
| `Dedup.AdmitEffect` | matching_utils.py:120-130 | one scan step: the kept keys gain the row's key, entries with other keys stay in the same order, the list grows only for a new key, and the row is the last entry when it takes over its key (new key, or the kept row has strictly more nulls); otherwise nothing changes |
| `Dedup.AdmitKept` | matching_utils.py:118-130 | each scan step keeps the invariant: keys distinct, every scanned key represented, each item preferred over every scanned row with its key |
| `Dedup.RemoveDuplicates` | matching_utils.py:116-137 | the output is no longer than the input and consists of unmodified input rows. Their keys are pairwise distinct and every input key is represented. Each kept row has the fewest nulls among the rows sharing its key, and is the earliest such row |
| `Cleaner.CorrectTargets` | matching_utils.py:146-153 | the references are exactly what the pass leaves of the candidates, each a candidate, pairwise separated, every other candidate beaten, and not none when there are candidates. Row `j` of the result is row `j` of the input with only its target rewritten: to "no" when the original cell is a "no" variant, and otherwise to its text run through the references |
| `Cleaner.CleanTarget` | matching_utils.py:150-153 | a cleaned target is "no", a reference, or the cell's own text |
| `Cleaner.CleanTargetExamples` | matching_utils.py:56-58 | a name longer than four characters with no references keeps its text, and "n0" becomes "no" whatever the references |
| `Cleaner.KeptRowsCleaned` | matching_utils.py:132-134 | the rows kept from a cleaned table are cleaned input rows, and every input row's identity cells survive in one of them |
| `Cleaner.Clean` | matching_utils.py:141-156 | the cleaned table has no more rows than the input and distinct keys, and every input row's identity cells appear in some output row. Every output row is an input row with only its target rewritten: to "no" when the original cell is a "no" variant, and otherwise to its text run through the references. The references are exactly what the pass leaves of the candidates, so each is a candidate spelling of the table; they are pairwise separated, every candidate that is not a reference lost to another, and there is a reference whenever there is a candidate |
| `Cleaner.SeparatedReferenceRewritten` | matching_utils.py:5-7 | at the shipped thresholds two lower-case references four edits apart are separated, the pass over the two keeps both whatever the counts, and autocorrection still rewrites the first to the second |

## Left out

- Reading and writing spreadsheets (`pd.read_excel`, `to_excel`, building the
  output DataFrame, matching_utils.py:54, 135, 159). These are foreign library
  calls. The table is a `seq<Row>`.
- Reading the stop-word file and printing it at import time
  (matching_utils.py:18-19). The stop words are a `set<string>` parameter.
- The file paths, column names and the module-level `main()` call
  (matching_utils.py:11-25, 161). The thresholds are parameters.
- The second copy of `levenshtein` in matching_utils.py:30-49 is identical to
  levenshtein.py:4-23 and is modelled once.
- The numpy float matrix and `np.int` conversion. The table holds exact
  integers, which give the same values.
- Unicode case folding. `Text.Lower` lower-cases ASCII letters only.
- Non-integral numeric cells. A number is `Number(int)`; only "is it text" and
  "is it null" matter to the core.
- Python NaN equality quirks in the tuple comparison of `remove_duplicates`.
  A missing cell is `Null` with ordinary equality.
- `itemList.remove(other)` removes the first item equal to `other`. Item
  indices are unique, so this is the item at the matched position, which is
  how `Dedup.Admit` removes it.
- `Dedup.RemoveDuplicates` does not state the output order as a whole. The
  order is stated per scan step by `Dedup.AdmitEffect`: first-seen keys are
  appended, and a replacement moves to the end.
- Cleaner.Clean: `Represented` states that the identity cells of every input
  row reach the output, not which cleaned target accompanies them. Each output
  row's target is fixed by `Cleaner.Cleaned`, and the full key, target
  included, is covered by `Dedup.RemoveDuplicates` on the corrected table.
- `Levenshtein.Distance` is the recursive definition and is exponential if
  executed. The program's cost is that of `Levenshtein.Compute`, which the
  reference matrix uses.
- References.Reduce: the summary clauses (`Justified`) record for a slot
  wildcarded because of a stop-word tail only that one of the two names had
  the tail, not the stripped-count comparison that chose the slot, and they
  allow a partner that was itself wildcarded earlier. The first clause,
  equality with `References.Pass`, fixes the result exactly; `References.Visit`
  states the comparison for each visit.
- References.ReferencesList: the same holds as for `References.Reduce`; the
  result is fixed exactly by its equality with `References.Pass`.
- References.SurvivingReferences: `AccountedFor` inherits the coarseness of
  `Justified`; the references are fixed exactly by their equality with the
  live slots of `References.Pass`.

=== FILE: autocorrect.dfy ===
/** The autocorrection pass: every present value of the target column is
    compared with each reference in turn and rewritten to any reference within
    the edit-distance threshold. There is no early exit, so later references
    are compared with the already rewritten value. */
module Autocorrect {
  import opened Wrappers
  import opened Text
  import Levenshtein

  /** `cur` is close enough to `reference`, case-insensitively: directly, or —
      when its last token is a stop word — with that token dropped. */
  predicate Matches(cur: string, reference: string, editDist: int, stop: set<string>) {
    || Levenshtein.Distance(Lower(cur), Lower(reference)) <= editDist
    || (HasStopTail(cur, stop) && Levenshtein.Distance(DropTrailingToken(Lower(cur)), Lower(reference)) <= editDist)
  }

  /** The inner loop over the references for one value. */
  function CorrectValue(cur: string, refs: seq<string>, editDist: int, stop: set<string>): (r: string)
    ensures r == cur || r in refs
    decreases |refs|
  {
    if refs == [] then cur
    else CorrectValue(if Matches(cur, refs[0], editDist, stop) then refs[0] else cur, refs[1..], editDist, stop)
  }

  /** Adding a reference at the end: it takes over exactly when it matches
      the value as rewritten by the earlier references. */
  lemma {:induction false} CorrectValueSnoc(cur: string, refs: seq<string>, last: string, editDist: int, stop: set<string>)
    ensures CorrectValue(cur, refs + [last], editDist, stop) ==
      var before := CorrectValue(cur, refs, editDist, stop);
      if Matches(before, last, editDist, stop) then last else before
    decreases |refs|
  {
    if refs != [] {
      var next := if Matches(cur, refs[0], editDist, stop) then refs[0] else cur;
      assert (refs + [last])[1..] == refs[1..] + [last];
      CorrectValueSnoc(next, refs[1..], last, editDist, stop);
    }
  }

  /** The value rewritten by the first `k` references. */
  function After(cur: string, refs: seq<string>, k: nat, editDist: int, stop: set<string>): string
    requires k <= |refs|
  {
    CorrectValue(cur, refs[..k], editDist, stop)
  }

  /** Cascading last match: the result is the LAST reference that matched the
      value as it stood when that reference was tried, and the value itself when
      no reference ever matched. */
  lemma {:induction false} LastMatchWins(cur: string, refs: seq<string>, editDist: int, stop: set<string>)
    ensures (forall k :: 0 <= k < |refs| ==> !Matches(After(cur, refs, k, editDist, stop), refs[k], editDist, stop))
      ==> CorrectValue(cur, refs, editDist, stop) == cur
    ensures forall k ::
      (&& 0 <= k < |refs|
       && Matches(After(cur, refs, k, editDist, stop), refs[k], editDist, stop)
       && (forall l :: k < l < |refs| ==> !Matches(After(cur, refs, l, editDist, stop), refs[l], editDist, stop)))
      ==> CorrectValue(cur, refs, editDist, stop) == refs[k]
    decreases |refs|
  {
    if refs != [] {
      var n := |refs| - 1;
      var init := refs[..n];
      assert refs == init + [refs[n]];
      CorrectValueSnoc(cur, init, refs[n], editDist, stop);
      LastMatchWins(cur, init, editDist, stop);
      forall k | 0 <= k <= n
        ensures After(cur, refs, k, editDist, stop) == After(cur, init, k, editDist, stop)
      {
        assert refs[..k] == init[..k];
      }
      assert init[..n] == init;
    }
  }

  /** A value that no reference matches, in either form, is left as it is. */
  lemma {:induction false} NoMatchUnchanged(cur: string, refs: seq<string>, editDist: int, stop: set<string>)
    ensures (forall k :: 0 <= k < |refs| ==> !Matches(cur, refs[k], editDist, stop)) ==>
      CorrectValue(cur, refs, editDist, stop) == cur
    decreases |refs|
  {
    if refs != [] {
      NoMatchUnchanged(cur, refs[1..], editDist, stop);
    }
  }

  /** One entry of the column: a missing entry is skipped, a present one goes
      through every reference. */
  function CorrectEntry(entry: Option<string>, refs: seq<string>, editDist: int, stop: set<string>)
    : (r: Option<string>)
    ensures r.None? <==> entry.None?
    ensures entry.Some? ==> r.value == entry.value || r.value in refs
    ensures entry.Some? && (forall l :: 0 <= l < |refs| ==> !Matches(entry.value, refs[l], editDist, stop)) ==>
      r == entry
  {
    match entry
    case None => None
    case Some(v) =>
      NoMatchUnchanged(v, refs, editDist, stop);
      Some(CorrectValue(v, refs, editDist, stop))
  }

  /** `autocorrect`: each present value goes through the references; missing
      entries are skipped. */
  function Autocorrect(column: seq<Option<string>>, refs: seq<string>, editDist: int, stop: set<string>)
    : (r: seq<Option<string>>)
    ensures |r| == |column|
    ensures forall k :: 0 <= k < |column| ==> (r[k].None? <==> column[k].None?)
    ensures forall k :: 0 <= k < |column| && column[k].Some? ==>
      r[k].value == column[k].value || r[k].value in refs
    ensures forall k ::
      (&& 0 <= k < |column| && column[k].Some?
       && (forall l :: 0 <= l < |refs| ==> !Matches(column[k].value, refs[l], editDist, stop)))
      ==> r[k] == column[k]
  {
    seq(|column|, k requires 0 <= k < |column| => CorrectEntry(column[k], refs, editDist, stop))
  }

  /** With no references nothing is rewritten. */
  lemma NoReferencesNoChange(column: seq<Option<string>>, editDist: int, stop: set<string>)
    ensures Autocorrect(column, [], editDist, stop) == column
  {
  }

  /** Rewriting is not idempotent on the reference set itself: with references
      "x" and "y" one edit apart and a threshold of 1, the reference "x" is
      first kept and then rewritten to the later reference "y". */
  lemma ReferenceRewrittenByLaterReference()
    ensures CorrectValue("x", ["x", "y"], 1, {}) == "y"
  {
    assert Lower("x") == "x" && Lower("y") == "y";
    assert Levenshtein.Distance("x", "x") == 0;
    assert Levenshtein.Distance("x", "y") == 1;
    assert ["x", "y"][1..] == ["y"];
    assert ["y"][1..] == [];
  }

  /** `fillna`: the entries still missing after autocorrection get `missingLabel`;
      every other entry keeps its text. */
  function FillMissing(column: seq<Option<string>>, missingLabel: string): (r: seq<string>)
    ensures |r| == |column|
    ensures forall k :: 0 <= k < |column| ==>
      column[k] == Some(r[k]) || (column[k].None? && r[k] == missingLabel)
  {
    seq(|column|, k requires 0 <= k < |column| => column[k].GetOr(missingLabel))
  }

  /** Filling counts: each string occurs in the filled column as often as it was
      present, and the label additionally once for every missing entry. */
  lemma {:induction false} FillMissingCounts(column: seq<Option<string>>, missingLabel: string, s: string)
    ensures multiset(FillMissing(column, missingLabel))[s]
         == multiset(column)[Some(s)] + (if s == missingLabel then multiset(column)[None] else 0)
  {
    if column != [] {
      var init := column[..|column| - 1];
      var last := column[|column| - 1];
      FillMissingCounts(init, missingLabel, s);
      assert column == init + [last];
      assert FillMissing(column, missingLabel) == FillMissing(init, missingLabel) + [last.GetOr(missingLabel)];
    }
  }
}

=== FILE: cleaner.dfy ===
/** The cleaning run: normalise "no" variants, build the reference set,
    autocorrect the target column, fill what is still missing with "no", and
    remove duplicate records. */
module Cleaner {
  import opened Wrappers
  import opened Table
  import opened Text
  import Levenshtein
  import MissingValues
  import References
  import Autocorrect
  import Dedup

  /** The tuning knobs: candidate frequency, reference-merge distance, autocorrection distance. */
  datatype Thresholds = Thresholds(freq: int, refDist: int, editDist: int)

  /** The thresholds the program ships with. */
  const Shipped := Thresholds(2, 3, 4)

  /** At the shipped thresholds two lower-case references exactly four edits
      apart, with no stop words, are separated, and the reduction pass over
      the two keeps both, whatever their counts; yet autocorrection rewrites
      the first one to the second. */
  lemma SeparatedReferenceRewritten(a: string, b: string)
    requires Lower(a) == a && Lower(b) == b
    requires Levenshtein.Distance(a, b) == 4
    ensures References.Separated(a, b, Shipped.refDist, {})
    ensures forall xs :: References.Pass([a, b], xs, Shipped.refDist, {}) == [Some(a), Some(b)]
    ensures Autocorrect.CorrectValue(a, [a, b], Shipped.editDist, {}) == b
  {
    forall xs
      ensures References.Pass([a, b], xs, Shipped.refDist, {}) == [Some(a), Some(b)]
    {
      var s := References.Unreduced([a, b]);
      assert s == [Some(a), Some(b)];
      assert References.Visit(s, 0, 1, Levenshtein.Distance(a, b), xs, Shipped.refDist, {}) == s;
      assert References.Sweep(s, [a, b], xs, Shipped.refDist, {}, 2, 0) == s;
      assert References.Sweep(s, [a, b], xs, Shipped.refDist, {}, 1, 1) == s;
    }
    Levenshtein.ZeroIffEqual(a, a);
    assert [a, b][1..] == [b];
    assert [b][1..] == [];
  }

  /** The label written into target cells that are still missing after autocorrection. */
  const MissingLabel := "no"

  /** One cleaning run over a table. The result has no more rows than the input,
      pairwise distinct identity keys, and only unmodified input rows except for
      the target cell, which is text: the missing label, a reference, or the
      row's own original text. Every input row's two identity cells appear in
      some output row. The references are exactly what the reduction pass
      leaves of the candidates, so each is a candidate spelling of the table;
      they are pairwise separated, every candidate
      that is not a reference lost to another candidate, and there is a
      reference whenever there is a candidate. */
  method Clean(rows: seq<Row>, th: Thresholds, stop: set<string>) returns (out: seq<Row>, refs: seq<string>)
    ensures |out| <= |rows|
    ensures forall p, q :: 0 <= p < q < |out| ==> KeyOf(out[p]) != KeyOf(out[q])
    ensures refs == References.Present(References.Pass(TableCandidates(rows, th.freq),
                                                      Values(rows),
                                                      th.refDist, stop))
    ensures forall k :: 0 <= k < |refs| ==> refs[k] in TableCandidates(rows, th.freq)
    ensures forall p, q :: 0 <= p < q < |refs| ==> References.Separated(refs[p], refs[q], th.refDist, stop)
    ensures forall k :: 0 <= k < |out| ==> out[k].target.Text?
    ensures forall k :: 0 <= k < |out| ==> CleanedFrom(rows, out[k], refs, th.editDist, stop)
    ensures forall j :: 0 <= j < |rows| ==> Represented(out, rows[j])
    ensures References.AccountedFor(TableCandidates(rows, th.freq),
                                    Values(rows),
                                    refs, th.refDist, stop)
    ensures |TableCandidates(rows, th.freq)| > 0 ==> |refs| > 0
  {
    var table, indices;
    table, refs := CorrectTargets(rows, th, stop);
    out, indices := Dedup.RemoveDuplicates(table);
    KeptRowsCleaned(rows, table, refs, th.editDist, stop, out, indices);
  }

  /** The rows kept from a cleaned table: each is an input row, cleaned, and
      every input row's identity cells survive in some kept row. */
  lemma KeptRowsCleaned(rows: seq<Row>, table: seq<Row>, refs: seq<string>, editDist: int, stop: set<string>,
                         out: seq<Row>, indices: seq<nat>)
    requires |table| == |rows|
    requires forall j :: 0 <= j < |rows| ==> Cleaned(rows[j], table[j], refs, editDist, stop)
    requires |out| == |indices|
    requires forall k :: 0 <= k < |indices| ==> indices[k] < |table| && out[k] == table[indices[k]]
    requires forall j :: 0 <= j < |table| ==> Dedup.HasKey(out, KeyOf(table[j]))
    ensures forall k :: 0 <= k < |out| ==> CleanedFrom(rows, out[k], refs, editDist, stop)
    ensures forall j :: 0 <= j < |rows| ==> Represented(out, rows[j])
  {
    forall k | 0 <= k < |out|
      ensures CleanedFrom(rows, out[k], refs, editDist, stop)
    {
      var j := indices[k];
      assert Cleaned(rows[j], out[k], refs, editDist, stop);
    }
    forall j | 0 <= j < |rows|
      ensures Represented(out, rows[j])
    {
      assert Dedup.HasKey(out, KeyOf(table[j]));
      var k :| 0 <= k < |out| && KeyOf(out[k]) == KeyOf(table[j]);
      assert out[k].id1 == rows[j].id1 && out[k].id2 == rows[j].id2;
    }
  }

  /** The target column rewritten in place: the references are built from the
      normalised column, every present value is autocorrected against them,
      and what is still missing gets the missing label. Row `j` of the result
      is row `j` of the input with only its target cleaned, and the references
      are exactly what the reduction pass leaves of the candidates. */
  method CorrectTargets(rows: seq<Row>, th: Thresholds, stop: set<string>) returns (table: seq<Row>, refs: seq<string>)
    ensures refs == References.Present(References.Pass(TableCandidates(rows, th.freq),
                                                      Values(rows),
                                                      th.refDist, stop))
    ensures forall k :: 0 <= k < |refs| ==> refs[k] in TableCandidates(rows, th.freq)
    ensures forall p, q :: 0 <= p < q < |refs| ==> References.Separated(refs[p], refs[q], th.refDist, stop)
    ensures References.AccountedFor(TableCandidates(rows, th.freq),
                                    Values(rows),
                                    refs, th.refDist, stop)
    ensures |TableCandidates(rows, th.freq)| > 0 ==> |refs| > 0
    ensures |table| == |rows|
    ensures forall j :: 0 <= j < |rows| ==> Cleaned(rows[j], table[j], refs, th.editDist, stop)
  {
    var column := MissingValues.NormaliseColumn(Targets(rows));
    refs := References.SurvivingReferences(column, th.freq, th.refDist, stop);
    var corrected := Autocorrect.Autocorrect(column, refs, th.editDist, stop);
    var filled := Autocorrect.FillMissing(corrected, MissingLabel);
    table := WithTargets(rows, filled);
  }

  /** The target column's values after "no"-variant normalisation, missing
      entries dropped. */
  function Values(rows: seq<Row>): seq<string> {
    References.Present(MissingValues.NormaliseColumn(Targets(rows)))
  }

  /** The candidate spellings of the table's target column. */
  function TableCandidates(rows: seq<Row>, freq: int): seq<string> {
    References.Candidates(Values(rows), freq)
  }

  /** Some row of `out` carries the identity cells of `row`. */
  predicate Represented(out: seq<Row>, row: Row) {
    exists k :: 0 <= k < |out| && out[k].id1 == row.id1 && out[k].id2 == row.id2
  }

  /** The cleaned target of a cell: the missing label for a "no" variant, and
      otherwise its text run through the references. */
  function CleanTarget(c: Cell, refs: seq<string>, editDist: int, stop: set<string>): (r: string)
    ensures r == MissingLabel || r in refs || c == Text(r)
  {
    if MissingValues.IsNoVariant(c) then MissingLabel
    else Autocorrect.CorrectValue(c.text, refs, editDist, stop)
  }

  /** A long name with nothing to match keeps its text, and a "no" variant
      such as "n0" gets the missing label whatever the references. */
  lemma CleanTargetExamples(v: string, refs: seq<string>, editDist: int, stop: set<string>)
    requires |v| > 4
    ensures CleanTarget(Text(v), [], editDist, stop) == v
    ensures CleanTarget(Text("n0"), refs, editDist, stop) == MissingLabel
  {
    MissingValues.LongTextIsKept([Text(v)], 0);
    MissingValues.ShortTextIsMissing([Text("n0")], 0);
  }

  /** `after` is `before` with only its target cell rewritten, to its cleaned
      value. */
  predicate Cleaned(before: Row, after: Row, refs: seq<string>, editDist: int, stop: set<string>) {
    after == before.(target := Text(CleanTarget(before.target, refs, editDist, stop)))
  }

  /** `after` is some row of `rows`, cleaned. */
  predicate CleanedFrom(rows: seq<Row>, after: Row, refs: seq<string>, editDist: int, stop: set<string>) {
    exists j :: 0 <= j < |rows| && Cleaned(rows[j], after, refs, editDist, stop)
  }
}

=== FILE: dedup.dfy ===
/** Removal of duplicate records: rows with equal identity keys collapse to the
    one with the fewest absent cells, the earliest such row on a tie. */
module Dedup {
  import opened Wrappers
  import opened Table

  /** An entry of the kept list: a row position and that row's key. */
  datatype Item = Item(index: nat, key: Key)

  /** Row `a` is at least as good a representative as row `b`: fewer absent
      cells, or as many and seen no later. */
  predicate Preferred(rows: seq<Row>, a: nat, b: nat)
    requires a < |rows| && b < |rows|
  {
    NullCount(rows[a]) < NullCount(rows[b]) || (NullCount(rows[a]) == NullCount(rows[b]) && a <= b)
  }

  /** Each entry names one of the first `n` rows and carries that row's key. */
  predicate Indexed(rows: seq<Row>, n: nat, items: seq<Item>)
    requires n <= |rows|
  {
    forall k :: 0 <= k < |items| ==> items[k].index < n && items[k].key == KeyOf(rows[items[k].index])
  }

  predicate DistinctKeys(items: seq<Item>) {
    forall p, q :: 0 <= p < q < |items| ==> items[p].key != items[q].key
  }

  /** The key of each of the first `n` rows is held by some entry. */
  predicate Covers(rows: seq<Row>, n: nat, items: seq<Item>)
    requires n <= |rows|
  {
    forall j :: 0 <= j < n ==> exists k :: 0 <= k < |items| && items[k].key == KeyOf(rows[j])
  }

  /** Each entry is preferred over every one of the first `n` rows sharing its key. */
  predicate Best(rows: seq<Row>, n: nat, items: seq<Item>)
    requires n <= |rows|
  {
    forall k, j :: 0 <= k < |items| && 0 <= j < n && items[k].index < |rows| && items[k].key == KeyOf(rows[j]) ==>
      Preferred(rows, items[k].index, j)
  }

  /** The kept list after scanning the first `n` rows. */
  predicate Kept(rows: seq<Row>, n: nat, items: seq<Item>)
    requires n <= |rows|
  {
    |items| <= n && Indexed(rows, n, items) && DistinctKeys(items) && Covers(rows, n, items) && Best(rows, n, items)
  }

  /** The first position in `items` holding `key`, if any. */
  function FindKey(items: seq<Item>, key: Key): (r: Option<nat>)
    ensures r.None? <==> forall k :: 0 <= k < |items| ==> items[k].key != key
    ensures r.Some? ==> r.value < |items| && items[r.value].key == key
    ensures r.Some? ==> forall k :: 0 <= k < r.value ==> items[k].key != key
  {
    if items == [] then None
    else if items[0].key == key then Some(0)
    else match FindKey(items[1..], key)
      case None => None
      case Some(p) => Some(p + 1)
  }

  /** The keys held by the entries. */
  function Keys(items: seq<Item>): set<Key> {
    set it | it in items :: it.key
  }

  /** The entries whose key is not `key`, in order. */
  function Others(items: seq<Item>, key: Key): seq<Item> {
    if items == [] then []
    else (if items[0].key != key then [items[0]] else []) + Others(items[1..], key)
  }

  lemma {:induction false} OthersConcat(a: seq<Item>, b: seq<Item>, key: Key)
    ensures Others(a + b, key) == Others(a, key) + Others(b, key)
  {
    if a != [] {
      var head := if a[0].key != key then [a[0]] else [];
      assert (a + b)[0] == a[0];
      assert (a + b)[1..] == a[1..] + b;
      OthersConcat(a[1..], b, key);
      calc {
        Others(a + b, key);
        head + Others(a[1..] + b, key);
        head + (Others(a[1..], key) + Others(b, key));
        (head + Others(a[1..], key)) + Others(b, key);
        Others(a, key) + Others(b, key);
      }
    } else {
      assert a + b == b;
    }
  }

  lemma OthersSingle(x: Item, key: Key)
    ensures Others([x], key) == if x.key != key then [x] else []
  {
    assert [x][1..] == [];
  }

  /** With no entry holding `key`, every entry is kept. */
  lemma {:induction false} OthersAll(items: seq<Item>, key: Key)
    requires forall k :: 0 <= k < |items| ==> items[k].key != key
    ensures Others(items, key) == items
  {
    if items != [] {
      OthersAll(items[1..], key);
    }
  }

  /** One iteration of the scan, for row `i`: a row with a new key is appended;
      a row whose key is already kept replaces the kept entry only when that
      entry's row has strictly more absent cells, and the replacement goes to
      the end of the list. */
  function Admit(items: seq<Item>, rows: seq<Row>, i: nat): (r: seq<Item>)
    requires i < |rows|
    requires forall k :: 0 <= k < |items| ==> items[k].index < |rows|
    ensures forall k :: 0 <= k < |r| ==> r[k].index < |rows|
  {
    var key := KeyOf(rows[i]);
    match FindKey(items, key)
    case None => items + [Item(i, key)]
    case Some(p) =>
      if NullCount(rows[items[p].index]) > NullCount(rows[i])
      then items[..p] + items[p + 1..] + [Item(i, key)]
      else items
  }

  /** Row `i` takes over its key: no entry holds the key yet, or the first entry
      holding it names a row with strictly more absent cells. */
  predicate Takes(items: seq<Item>, rows: seq<Row>, i: nat)
    requires i < |rows|
    requires forall k :: 0 <= k < |items| ==> items[k].index < |rows|
  {
    match FindKey(items, KeyOf(rows[i]))
    case None => true
    case Some(p) => NullCount(rows[items[p].index]) > NullCount(rows[i])
  }

  /** Replacing the entry at `p` by a later entry with the same key keeps the key set. */
  lemma ReplaceKeySet(items: seq<Item>, p: nat, i: nat)
    requires p < |items|
    ensures Keys(items[..p] + items[p + 1..] + [Item(i, items[p].key)]) == Keys(items)
  {
    var r := items[..p] + items[p + 1..] + [Item(i, items[p].key)];
    assert items == items[..p] + [items[p]] + items[p + 1..];
    forall z | z in items
      ensures z.key in Keys(r)
    {
      if z == items[p] {
        assert r[|r| - 1] in r;
      } else {
        assert z in items[..p] || z in items[p + 1..];
        assert z in r;
      }
    }
    forall z | z in r
      ensures z.key in Keys(items)
    {
      if z == Item(i, items[p].key) {
        assert items[p] in items;
      } else {
        assert z in items[..p] || z in items[p + 1..];
      }
    }
  }

  /** Replacing the entry at `p` by a later entry with the same key keeps the
      other entries in order. */
  lemma SplitAt(items: seq<Item>, p: nat)
    requires p < |items|
    ensures items == items[..p] + ([items[p]] + items[p + 1..])
  {
    assert items[..p] + ([items[p]] + items[p + 1..]) == items[..p] + items[p..];
  }

  lemma ReplaceOthers(items: seq<Item>, p: nat, i: nat)
    requires p < |items|
    ensures Others(items[..p] + items[p + 1..] + [Item(i, items[p].key)], items[p].key)
         == Others(items, items[p].key)
  {
    var key := items[p].key;
    var front, back := items[..p], items[p + 1..];
    calc {
      Others(items, key);
      { SplitAt(items, p); }
      Others(front + ([items[p]] + back), key);
      { OthersConcat(front, [items[p]] + back, key); }
      Others(front, key) + Others([items[p]] + back, key);
      { OthersConcat([items[p]], back, key); OthersSingle(items[p], key); }
      Others(front, key) + Others(back, key);
      { OthersConcat(front, back, key); }
      Others(front + back, key);
      { OthersSingle(Item(i, key), key); }
      Others(front + back, key) + Others([Item(i, key)], key);
      { OthersConcat(front + back, [Item(i, key)], key); }
      Others(front + back + [Item(i, key)], key);
    }
  }

  /** What one scan step does. The set of kept keys gains the row's key; the
      entries holding other keys stay, in the same order; the list grows only
      for a new key. When the row takes over its key it is the last entry,
      otherwise nothing changes. */
  lemma AdmitEffect(items: seq<Item>, rows: seq<Row>, i: nat)
    requires i < |rows|
    requires forall k :: 0 <= k < |items| ==> items[k].index < |rows|
    ensures Keys(Admit(items, rows, i)) == Keys(items) + {KeyOf(rows[i])}
    ensures Others(Admit(items, rows, i), KeyOf(rows[i])) == Others(items, KeyOf(rows[i]))
    ensures |Admit(items, rows, i)| == |items| + (if FindKey(items, KeyOf(rows[i])).None? then 1 else 0)
    ensures Takes(items, rows, i) ==>
      Admit(items, rows, i)[|Admit(items, rows, i)| - 1] == Item(i, KeyOf(rows[i]))
    ensures !Takes(items, rows, i) ==> Admit(items, rows, i) == items
  {
    var key := KeyOf(rows[i]);
    match FindKey(items, key)
    case None =>
      OthersConcat(items, [Item(i, key)], key);
      OthersAll(items, key);
    case Some(p) =>
      assert items[p] in items;
      if NullCount(rows[items[p].index]) > NullCount(rows[i]) {
        ReplaceKeySet(items, p, i);
        ReplaceOthers(items, p, i);
      }
  }

  lemma NewKeyCovers(items: seq<Item>, rows: seq<Row>, i: nat)
    requires i < |rows|
    requires Covers(rows, i, items)
    ensures Covers(rows, i + 1, items + [Item(i, KeyOf(rows[i]))])
  {
    var r := items + [Item(i, KeyOf(rows[i]))];
    forall j | 0 <= j < i + 1
      ensures exists k :: 0 <= k < |r| && r[k].key == KeyOf(rows[j])
    {
      if j < i {
        var k :| 0 <= k < |items| && items[k].key == KeyOf(rows[j]);
        assert r[k] == items[k];
      } else {
        assert r[|items|].key == KeyOf(rows[j]);
      }
    }
  }

  lemma NewKeyBest(items: seq<Item>, rows: seq<Row>, i: nat)
    requires i < |rows|
    requires Best(rows, i, items)
    requires Covers(rows, i, items)
    requires forall k :: 0 <= k < |items| ==> items[k].key != KeyOf(rows[i])
    ensures Best(rows, i + 1, items + [Item(i, KeyOf(rows[i]))])
  {
    var r := items + [Item(i, KeyOf(rows[i]))];
    forall k, j | 0 <= k < |r| && 0 <= j < i + 1 && r[k].index < |rows| && r[k].key == KeyOf(rows[j])
      ensures Preferred(rows, r[k].index, j)
    {
      if k < |items| {
        assert r[k] == items[k];
      }
    }
  }

  /** Admitting a row whose key is new keeps the invariant. */
  lemma AdmitNewKey(items: seq<Item>, rows: seq<Row>, i: nat)
    requires i < |rows|
    requires Kept(rows, i, items)
    requires forall k :: 0 <= k < |items| ==> items[k].key != KeyOf(rows[i])
    ensures Kept(rows, i + 1, items + [Item(i, KeyOf(rows[i]))])
  {
    var r := items + [Item(i, KeyOf(rows[i]))];
    assert forall k :: 0 <= k < |items| ==> r[k] == items[k];
    NewKeyCovers(items, rows, i);
    NewKeyBest(items, rows, i);
  }

  /** Removing the entry at `p` leaves a list of the other entries, in order. */
  lemma RemoveAt(items: seq<Item>, p: nat)
    requires p < |items|
    ensures var rest := items[..p] + items[p + 1..];
      && |rest| == |items| - 1
      && (forall k :: 0 <= k < p ==> rest[k] == items[k])
      && (forall k :: p <= k < |rest| ==> rest[k] == items[k + 1])
  {
  }

  /** `x` is an entry of `items` at a position other than `p`. */
  predicate OtherEntry(items: seq<Item>, p: nat, x: Item) {
    exists l :: 0 <= l < |items| && l != p && items[l] == x
  }

  /** Every entry left after removing the one at `p` is another entry of `items`. */
  lemma RestFromItems(items: seq<Item>, p: nat, rest: seq<Item>)
    requires p < |items| && rest == items[..p] + items[p + 1..]
    ensures forall k :: 0 <= k < |rest| ==> OtherEntry(items, p, rest[k])
  {
    RemoveAt(items, p);
    forall k | 0 <= k < |rest|
      ensures OtherEntry(items, p, rest[k])
    {
      if k < p {
        assert rest[k] == items[k];
      } else {
        assert rest[k] == items[k + 1];
      }
    }
  }

  lemma ReplaceDistinct(items: seq<Item>, p: nat, key: Key, i: nat)
    requires p < |items| && items[p].key == key
    requires DistinctKeys(items)
    ensures DistinctKeys(items[..p] + items[p + 1..] + [Item(i, key)])
  {
    var rest := items[..p] + items[p + 1..];
    var r := rest + [Item(i, key)];
    RemoveAt(items, p);
    RestFromItems(items, p, rest);
    forall a, b | 0 <= a < b < |r|
      ensures r[a].key != r[b].key
    {
      if b < |rest| {
        if b < p {
          assert r[a] == items[a] && r[b] == items[b];
        } else if a < p {
          assert r[a] == items[a] && r[b] == items[b + 1];
        } else {
          assert r[a] == items[a + 1] && r[b] == items[b + 1];
        }
      } else {
        var l :| 0 <= l < |items| && l != p && rest[a] == items[l];
        assert r[a] == items[l];
      }
    }
  }

  lemma ReplaceCovers(items: seq<Item>, rows: seq<Row>, i: nat, p: nat)
    requires i < |rows|
    requires p < |items| && items[p].key == KeyOf(rows[i])
    requires Covers(rows, i, items)
    ensures Covers(rows, i + 1, items[..p] + items[p + 1..] + [Item(i, KeyOf(rows[i]))])
  {
    var rest := items[..p] + items[p + 1..];
    var r := rest + [Item(i, KeyOf(rows[i]))];
    RemoveAt(items, p);
    forall j | 0 <= j < i + 1
      ensures exists k :: 0 <= k < |r| && r[k].key == KeyOf(rows[j])
    {
      if KeyOf(rows[j]) == KeyOf(rows[i]) {
        assert r[|rest|].key == KeyOf(rows[j]);
      } else {
        var k :| 0 <= k < |items| && items[k].key == KeyOf(rows[j]);
        if k < p {
          assert r[k] == items[k];
        } else {
          assert r[k - 1] == items[k];
        }
      }
    }
  }

  lemma ReplaceBest(items: seq<Item>, rows: seq<Row>, i: nat, p: nat)
    requires i < |rows|
    requires p < |items| && items[p].key == KeyOf(rows[i]) && items[p].index < |rows|
    requires NullCount(rows[items[p].index]) > NullCount(rows[i])
    requires Best(rows, i, items)
    requires DistinctKeys(items)
    ensures Best(rows, i + 1, items[..p] + items[p + 1..] + [Item(i, KeyOf(rows[i]))])
  {
    var rest := items[..p] + items[p + 1..];
    var r := rest + [Item(i, KeyOf(rows[i]))];
    RestFromItems(items, p, rest);
    forall k, j | 0 <= k < |r| && 0 <= j < i + 1 && r[k].index < |rows| && r[k].key == KeyOf(rows[j])
      ensures Preferred(rows, r[k].index, j)
    {
      if k == |rest| {
        if j < i {
          assert Preferred(rows, items[p].index, j);
        }
      } else {
        var l :| 0 <= l < |items| && l != p && rest[k] == items[l];
        assert r[k] == items[l];
      }
    }
  }

  /** Replacing the entry at `p` by row `i`, which has strictly fewer absent
      cells, keeps the invariant. */
  lemma AdmitReplace(items: seq<Item>, rows: seq<Row>, i: nat, p: nat)
    requires i < |rows|
    requires Kept(rows, i, items)
    requires p < |items| && items[p].key == KeyOf(rows[i])
    requires NullCount(rows[items[p].index]) > NullCount(rows[i])
    ensures Kept(rows, i + 1, items[..p] + items[p + 1..] + [Item(i, KeyOf(rows[i]))])
  {
    ReplaceDistinct(items, p, KeyOf(rows[i]), i);
    ReplaceCovers(items, rows, i, p);
    ReplaceBest(items, rows, i, p);
  }

  /** Keeping the entry at `p`, whose row has no more absent cells than row `i`,
      keeps the invariant. */
  lemma AdmitKeepOld(items: seq<Item>, rows: seq<Row>, i: nat, p: nat)
    requires i < |rows|
    requires Kept(rows, i, items)
    requires p < |items| && items[p].key == KeyOf(rows[i])
    requires NullCount(rows[items[p].index]) <= NullCount(rows[i])
    ensures Kept(rows, i + 1, items)
  {
    assert Preferred(rows, items[p].index, i);
    assert Covers(rows, i + 1, items) by {
      forall j | 0 <= j < i + 1
        ensures exists k :: 0 <= k < |items| && items[k].key == KeyOf(rows[j])
      {
        if j == i {
          assert items[p].key == KeyOf(rows[j]);
        }
      }
    }
    assert Best(rows, i + 1, items) by {
      forall k, j | 0 <= k < |items| && 0 <= j < i + 1 && items[k].index < |rows| && items[k].key == KeyOf(rows[j])
        ensures Preferred(rows, items[k].index, j)
      {
        if j == i {
          assert k == p;
        }
      }
    }
  }

  /** Admitting row `i` keeps the kept-list invariant, now over `i + 1` rows. */
  lemma AdmitKept(items: seq<Item>, rows: seq<Row>, i: nat)
    requires i < |rows|
    requires Kept(rows, i, items)
    ensures Kept(rows, i + 1, Admit(items, rows, i))
  {
    var key := KeyOf(rows[i]);
    match FindKey(items, key)
    case None =>
      AdmitNewKey(items, rows, i);
    case Some(p) =>
      if NullCount(rows[items[p].index]) > NullCount(rows[i]) {
        AdmitReplace(items, rows, i, p);
      } else {
        AdmitKeepOld(items, rows, i, p);
      }
  }

  /** Some row of `rows` has key `key`. */
  predicate HasKey(rows: seq<Row>, key: Key) {
    exists k :: 0 <= k < |rows| && KeyOf(rows[k]) == key
  }

  /** The rows named by a kept list over the whole table have pairwise distinct
      keys, and every key of the table is among them. */
  lemma KeptRows(rows: seq<Row>, items: seq<Item>, unique: seq<Row>)
    requires Kept(rows, |rows|, items)
    requires |unique| == |items|
    requires forall k :: 0 <= k < |items| ==> unique[k] == rows[items[k].index]
    ensures forall p, q :: 0 <= p < q < |unique| ==> KeyOf(unique[p]) != KeyOf(unique[q])
    ensures forall j :: 0 <= j < |rows| ==> HasKey(unique, KeyOf(rows[j]))
  {
    assert forall k :: 0 <= k < |items| ==> KeyOf(unique[k]) == items[k].key;
    forall j | 0 <= j < |rows|
      ensures HasKey(unique, KeyOf(rows[j]))
    {
      var k :| 0 <= k < |items| && items[k].key == KeyOf(rows[j]);
      assert KeyOf(unique[k]) == KeyOf(rows[j]);
    }
  }

  /** `remove_duplicates`: the scan over all rows, then the kept rows in kept-list
      order. Every input key is represented by exactly one output row, that row is
      an unmodified input row with the fewest absent cells among the rows sharing
      its key, and among those the earliest. */
  method RemoveDuplicates(rows: seq<Row>) returns (unique: seq<Row>, indices: seq<nat>)
    ensures |unique| == |indices| <= |rows|
    ensures forall k :: 0 <= k < |indices| ==> indices[k] < |rows| && unique[k] == rows[indices[k]]
    ensures forall p, q :: 0 <= p < q < |unique| ==> KeyOf(unique[p]) != KeyOf(unique[q])
    ensures forall j :: 0 <= j < |rows| ==> HasKey(unique, KeyOf(rows[j]))
    ensures forall k, j :: 0 <= k < |indices| && 0 <= j < |rows| && KeyOf(rows[j]) == KeyOf(unique[k]) ==>
      Preferred(rows, indices[k], j)
  {
    var items: seq<Item> := [];
    var i := 0;
    while i < |rows|
      invariant 0 <= i <= |rows|
      invariant Kept(rows, i, items)
    {
      AdmitKept(items, rows, i);
      items := Admit(items, rows, i);
      i := i + 1;
    }
    indices := seq(|items|, k requires 0 <= k < |items| => items[k].index);
    unique := seq(|items|, k requires 0 <= k < |items| => rows[items[k].index]);
    KeptRows(rows, items, unique);
  }
}

=== FILE: levenshtein.dfy ===
/** Levenshtein edit distance: unit-cost insertions, deletions and
    substitutions, computed by the classic dynamic-programming table. */
module Levenshtein {

  /** Cost of aligning character `x` with character `y`. */
  function SubstitutionCost(x: char, y: char): nat {
    if x == y then 0 else 1
  }

  function Min3(x: nat, y: nat, z: nat): (m: nat)
    ensures m <= x && m <= y && m <= z
    ensures m == x || m == y || m == z
  {
    if x <= y && x <= z then x else if y <= z then y else z
  }

  function Max(x: nat, y: nat): nat {
    if x < y then y else x
  }

  function Gap(x: nat, y: nat): nat {
    if x < y then y - x else x - y
  }

  /** Cell [i, j] of the table: the distance between the prefixes `a[..i]` and `b[..j]`.
      Row 0 and column 0 hold `0..len`; every other cell is the cheapest of a
      deletion, an insertion, or a substitution (free on equal characters). */
  function PrefixDistance(a: string, b: string, i: nat, j: nat): nat
    requires i <= |a| && j <= |b|
    decreases i + j
  {
    if i == 0 then j
    else if j == 0 then i
    else Min3(PrefixDistance(a, b, i - 1, j) + 1,
              PrefixDistance(a, b, i, j - 1) + 1,
              PrefixDistance(a, b, i - 1, j - 1) + SubstitutionCost(a[i - 1], b[j - 1]))
  }

  /** The edit distance between two whole strings: the bottom-right cell. */
  function Distance(a: string, b: string): nat {
    PrefixDistance(a, b, |a|, |b|)
  }

  /** The dynamic-programming computation, one table row at a time: row 0 is
      `0..|b|`, each later row starts with its index and fills the remaining
      cells from the row above and the cell to the left. */
  method Compute(a: string, b: string) returns (d: nat)
    ensures d == Distance(a, b)
  {
    var m, n := |a| + 1, |b| + 1;
    var first: seq<nat> := [];
    var y := 0;
    while y < n
      invariant 0 <= y <= n
      invariant |first| == y
      invariant forall q {:trigger first[q]} :: 0 <= q < y ==> first[q] == PrefixDistance(a, b, 0, q)
    {
      first := first + [y];
      y := y + 1;
    }
    var matrix: seq<seq<nat>> := [first];
    var x := 1;
    while x < m
      invariant 1 <= x <= m
      invariant |matrix| == x
      invariant forall p :: 0 <= p < x ==> |matrix[p]| == n
      invariant forall p, q {:trigger matrix[p][q]} :: 0 <= p < x && 0 <= q < n ==> matrix[p][q] == PrefixDistance(a, b, p, q)
    {
      var above := matrix[x - 1];
      var row: seq<nat> := [x];
      y := 1;
      while y < n
        invariant 1 <= y <= n
        invariant |row| == y
        invariant forall q {:trigger row[q]} :: 0 <= q < y ==> row[q] == PrefixDistance(a, b, x, q)
      {
        var cost := if a[x - 1] == b[y - 1] then 0 else 1;
        row := row + [Min3(above[y] + 1, row[y - 1] + 1, above[y - 1] + cost)];
        y := y + 1;
      }
      matrix := matrix + [row];
      x := x + 1;
    }
    d := matrix[m - 1][n - 1];
  }

  /** The distance is at least the length difference and at most the longer length;
      against an empty prefix it is exactly the other prefix's length. */
  lemma {:induction false} PrefixBounds(a: string, b: string, i: nat, j: nat)
    requires i <= |a| && j <= |b|
    ensures Gap(i, j) <= PrefixDistance(a, b, i, j) <= Max(i, j)
    decreases i + j
  {
    if i > 0 && j > 0 {
      PrefixBounds(a, b, i - 1, j);
      PrefixBounds(a, b, i, j - 1);
      PrefixBounds(a, b, i - 1, j - 1);
    }
  }

  lemma Bounds(a: string, b: string)
    ensures Gap(|a|, |b|) <= Distance(a, b) <= Max(|a|, |b|)
    ensures |a| == 0 ==> Distance(a, b) == |b|
    ensures |b| == 0 ==> Distance(a, b) == |a|
  {
    PrefixBounds(a, b, |a|, |b|);
  }

  lemma {:induction false} PrefixSymmetric(a: string, b: string, i: nat, j: nat)
    requires i <= |a| && j <= |b|
    ensures PrefixDistance(a, b, i, j) == PrefixDistance(b, a, j, i)
    decreases i + j
  {
    if i > 0 && j > 0 {
      PrefixSymmetric(a, b, i - 1, j);
      PrefixSymmetric(a, b, i, j - 1);
      PrefixSymmetric(a, b, i - 1, j - 1);
      assert SubstitutionCost(a[i - 1], b[j - 1]) == SubstitutionCost(b[j - 1], a[i - 1]);
    }
  }

  lemma Symmetric(a: string, b: string)
    ensures Distance(a, b) == Distance(b, a)
  {
    PrefixSymmetric(a, b, |a|, |b|);
  }

  lemma {:induction false} PrefixIdentity(a: string, i: nat)
    requires i <= |a|
    ensures PrefixDistance(a, a, i, i) == 0
  {
    if i > 0 {
      PrefixIdentity(a, i - 1);
    }
  }

  /** A zero cell can only come from a chain of free substitutions. */
  lemma {:induction false} PrefixZero(a: string, b: string, i: nat, j: nat)
    requires i <= |a| && j <= |b|
    requires PrefixDistance(a, b, i, j) == 0
    ensures i == j && a[..i] == b[..j]
    decreases i + j
  {
    if i > 0 && j > 0 {
      PrefixZero(a, b, i - 1, j - 1);
      assert a[..i] == a[..i - 1] + [a[i - 1]];
      assert b[..j] == b[..j - 1] + [b[j - 1]];
    }
  }

  /** The distance vanishes exactly on equal strings. */
  lemma ZeroIffEqual(a: string, b: string)
    ensures Distance(a, b) == 0 <==> a == b
  {
    if a == b {
      PrefixIdentity(a, |a|);
    }
    if Distance(a, b) == 0 {
      PrefixZero(a, b, |a|, |b|);
      assert a == a[..|a|] && b == b[..|b|];
    }
  }

  /** The table for any strings spelled k-i-t-t-e-n and s-i-t-t-i-n-g, filled
      cell by cell as the dynamic program fills it. */
  lemma KittenSittingTable(a: string, b: string)
    requires |a| == 6 && a[0] == 'k' && a[1] == 'i' && a[2] == 't' && a[3] == 't' && a[4] == 'e' && a[5] == 'n'
    requires |b| == 7 && b[0] == 's' && b[1] == 'i' && b[2] == 't' && b[3] == 't' && b[4] == 'i' && b[5] == 'n' && b[6] == 'g'
    ensures PrefixDistance(a, b, 6, 7) == 3
  {
    assert PrefixDistance(a, b, 1, 1) == 1;
    assert PrefixDistance(a, b, 1, 2) == 2;
    assert PrefixDistance(a, b, 1, 3) == 3;
    assert PrefixDistance(a, b, 1, 4) == 4;
    assert PrefixDistance(a, b, 1, 5) == 5;
    assert PrefixDistance(a, b, 1, 6) == 6;
    assert PrefixDistance(a, b, 1, 7) == 7;
    assert PrefixDistance(a, b, 2, 1) == 2;
    assert PrefixDistance(a, b, 2, 2) == 1;
    assert PrefixDistance(a, b, 2, 3) == 2;
    assert PrefixDistance(a, b, 2, 4) == 3;
    assert PrefixDistance(a, b, 2, 5) == 4;
    assert PrefixDistance(a, b, 2, 6) == 5;
    assert PrefixDistance(a, b, 2, 7) == 6;
    assert PrefixDistance(a, b, 3, 1) == 3;
    assert PrefixDistance(a, b, 3, 2) == 2;
    assert PrefixDistance(a, b, 3, 3) == 1;
    assert PrefixDistance(a, b, 3, 4) == 2;
    assert PrefixDistance(a, b, 3, 5) == 3;
    assert PrefixDistance(a, b, 3, 6) == 4;
    assert PrefixDistance(a, b, 3, 7) == 5;
    assert PrefixDistance(a, b, 4, 1) == 4;
    assert PrefixDistance(a, b, 4, 2) == 3;
    assert PrefixDistance(a, b, 4, 3) == 2;
    assert PrefixDistance(a, b, 4, 4) == 1;
    assert PrefixDistance(a, b, 4, 5) == 2;
    assert PrefixDistance(a, b, 4, 6) == 3;
    assert PrefixDistance(a, b, 4, 7) == 4;
    assert PrefixDistance(a, b, 5, 1) == 5;
    assert PrefixDistance(a, b, 5, 2) == 4;
    assert PrefixDistance(a, b, 5, 3) == 3;
    assert PrefixDistance(a, b, 5, 4) == 2;
    assert PrefixDistance(a, b, 5, 5) == 2;
    assert PrefixDistance(a, b, 5, 6) == 3;
    assert PrefixDistance(a, b, 5, 7) == 4;
    assert PrefixDistance(a, b, 6, 1) == 6;
    assert PrefixDistance(a, b, 6, 2) == 5;
    assert PrefixDistance(a, b, 6, 3) == 4;
    assert PrefixDistance(a, b, 6, 4) == 3;
    assert PrefixDistance(a, b, 6, 5) == 3;
    assert PrefixDistance(a, b, 6, 6) == 2;
    assert PrefixDistance(a, b, 6, 7) == 3;
  }

  /** The textbook example: "kitten" becomes "sitting" in three edits. */
  lemma KittenSitting()
    ensures Distance("kitten", "sitting") == 3
  {
    KittenSittingTable("kitten", "sitting");
  }
}

=== FILE: missing_values.dfy ===
/** The "no"-variant normalisation done while loading the table: a target
    cell that is not text, or whose lower-cased text is within edit distance 2
    of "no", becomes missing. */
module MissingValues {
  import opened Wrappers
  import opened Text
  import opened Table
  import Levenshtein

  /** How far from "no" a lower-cased value may be and still mean "no value". */
  const NoTolerance: nat := 2

  /** The cell means "no value": it is not text, or it is a spelling of "no". */
  predicate IsNoVariant(c: Cell) {
    !c.Text? || Levenshtein.Distance(Lower(c.text), "no") <= NoTolerance
  }

  function NormaliseCell(c: Cell): (r: Option<string>)
    ensures r.None? <==> IsNoVariant(c)
    ensures r.Some? ==> c == Text(r.value)
  {
    if IsNoVariant(c) then None else Some(c.text)
  }

  /** The normalisation loop over the target column. */
  function NormaliseColumn(column: seq<Cell>): (r: seq<Option<string>>)
    ensures |r| == |column|
    ensures forall k :: 0 <= k < |column| ==> (r[k].None? <==> IsNoVariant(column[k]))
    ensures forall k :: 0 <= k < |column| && r[k].Some? ==> column[k] == Text(r[k].value)
  {
    seq(|column|, k requires 0 <= k < |column| => NormaliseCell(column[k]))
  }

  /** Any text of at most two characters is within distance 2 of "no", so it
      always becomes missing. */
  lemma ShortTextIsMissing(column: seq<Cell>, k: nat)
    requires k < |column| && column[k].Text? && |column[k].text| <= 2
    ensures NormaliseColumn(column)[k].None?
  {
    Levenshtein.Bounds(Lower(column[k].text), "no");
  }

  /** A text whose length differs from 2 by more than 2 is never a "no" variant. */
  lemma LongTextIsKept(column: seq<Cell>, k: nat)
    requires k < |column| && column[k].Text? && |column[k].text| > 4
    ensures NormaliseColumn(column)[k] == Some(column[k].text)
  {
    Levenshtein.Bounds(Lower(column[k].text), "no");
  }

  /** Normalising an already normalised column changes nothing. */
  lemma NormaliseIdempotent(column: seq<Cell>)
    ensures var once := NormaliseColumn(column);
            NormaliseColumn(seq(|once|, k requires 0 <= k < |once| =>
              if once[k].Some? then Text(once[k].value) else Null)) == once
  {
  }

  /** The worked examples: "No", "n0" and a number are all read as missing. */
  lemma Examples()
    ensures NormaliseColumn([Text("No"), Text("n0"), Number(7)]) == [None, None, None]
  {
    var column := [Text("No"), Text("n0"), Number(7)];
    ShortTextIsMissing(column, 0);
    ShortTextIsMissing(column, 1);
  }
}

=== FILE: references.dfy ===
/** Construction and single-pass reduction of the reference list: the
    frequent spellings of the target column, with near-duplicates and
    stop-word variants overwritten by the wildcard (`None`). */
module References {
  import opened Wrappers
  import opened Text
  import Levenshtein

  /** The entries that are not missing, in order. This is both `dropna` on the
      column and the wildcard filter on the reference slots. Each string keeps
      exactly its number of occurrences. */
  function Present(column: seq<Option<string>>): (xs: seq<string>)
    ensures |xs| <= |column|
    ensures forall s :: multiset(xs)[s] == multiset(column)[Some(s)]
  {
    if column == [] then []
    else
      var init := column[..|column| - 1];
      var last := column[|column| - 1];
      assert column == init + [last];
      Present(init) + (if last.Some? then [last.value] else [])
  }

  /** Position of the first occurrence of `x` in `xs`, or `|xs|` when it does not occur. */
  function FirstIndex(xs: seq<string>, x: string): (r: nat)
    ensures r <= |xs|
    ensures r < |xs| <==> x in xs
    ensures r < |xs| ==> xs[r] == x
    ensures forall k :: 0 <= k < r ==> xs[k] != x
  {
    if xs == [] then 0
    else if xs[0] == x then 0
    else 1 + FirstIndex(xs[1..], x)
  }

  /** The candidate loop run over the first `n` entries of `xs`: an entry is
      appended when it occurs more than `freq` times in all of `xs` and is not
      already a candidate. */
  function CollectCandidates(xs: seq<string>, freq: int, n: nat): (r: seq<string>)
    requires n <= |xs|
    ensures |r| <= n
  {
    if n == 0 then []
    else
      var prev := CollectCandidates(xs, freq, n - 1);
      var x := xs[n - 1];
      if Count(xs, x) > freq && x !in prev then prev + [x] else prev
  }

  /** Every collected string first occurs among the first `n` entries and is frequent. */
  predicate FrequentSeen(xs: seq<string>, freq: int, n: nat, r: seq<string>) {
    forall k :: 0 <= k < |r| ==> FirstIndex(xs, r[k]) < n && Count(xs, r[k]) > freq
  }

  /** Every frequent string among the first `n` entries has been collected. */
  predicate CompleteUpTo(xs: seq<string>, freq: int, n: nat, r: seq<string>)
    requires n <= |xs|
  {
    forall k :: 0 <= k < n && Count(xs, xs[k]) > freq ==> xs[k] in r
  }

  /** The collected strings are in order of first occurrence. */
  predicate FirstSeenOrder(xs: seq<string>, r: seq<string>) {
    forall p, q :: 0 <= p < q < |r| ==> FirstIndex(xs, r[p]) < FirstIndex(xs, r[q])
  }

  /** A frequent entry not yet collected occurs here for the first time. */
  lemma FirstOccurrence(xs: seq<string>, freq: int, n: nat, prev: seq<string>)
    requires 0 < n <= |xs|
    requires CompleteUpTo(xs, freq, n - 1, prev)
    requires Count(xs, xs[n - 1]) > freq && xs[n - 1] !in prev
    ensures FirstIndex(xs, xs[n - 1]) == n - 1
  {
  }

  /** Appending a first occurrence keeps all three properties. */
  lemma AppendCandidate(xs: seq<string>, freq: int, n: nat, prev: seq<string>)
    requires 0 < n <= |xs|
    requires FrequentSeen(xs, freq, n - 1, prev)
    requires CompleteUpTo(xs, freq, n - 1, prev)
    requires FirstSeenOrder(xs, prev)
    requires Count(xs, xs[n - 1]) > freq && xs[n - 1] !in prev
    ensures FrequentSeen(xs, freq, n, prev + [xs[n - 1]])
    ensures CompleteUpTo(xs, freq, n, prev + [xs[n - 1]])
    ensures FirstSeenOrder(xs, prev + [xs[n - 1]])
  {
    FirstOccurrence(xs, freq, n, prev);
    var r := prev + [xs[n - 1]];
    assert forall k :: 0 <= k < |prev| ==> r[k] == prev[k];
    assert r[|prev|] == xs[n - 1];
  }

  /** Skipping an infrequent or already collected entry keeps all three properties. */
  lemma SkipEntry(xs: seq<string>, freq: int, n: nat, prev: seq<string>)
    requires 0 < n <= |xs|
    requires FrequentSeen(xs, freq, n - 1, prev)
    requires CompleteUpTo(xs, freq, n - 1, prev)
    requires Count(xs, xs[n - 1]) <= freq || xs[n - 1] in prev
    ensures FrequentSeen(xs, freq, n, prev)
    ensures CompleteUpTo(xs, freq, n, prev)
  {
  }

  /** One iteration of the candidate loop keeps all three properties. */
  lemma CollectStep(xs: seq<string>, freq: int, n: nat)
    requires 0 < n <= |xs|
    requires FrequentSeen(xs, freq, n - 1, CollectCandidates(xs, freq, n - 1))
    requires CompleteUpTo(xs, freq, n - 1, CollectCandidates(xs, freq, n - 1))
    requires FirstSeenOrder(xs, CollectCandidates(xs, freq, n - 1))
    ensures FrequentSeen(xs, freq, n, CollectCandidates(xs, freq, n))
    ensures CompleteUpTo(xs, freq, n, CollectCandidates(xs, freq, n))
    ensures FirstSeenOrder(xs, CollectCandidates(xs, freq, n))
  {
    var prev := CollectCandidates(xs, freq, n - 1);
    if Count(xs, xs[n - 1]) > freq && xs[n - 1] !in prev {
      AppendCandidate(xs, freq, n, prev);
    } else {
      SkipEntry(xs, freq, n, prev);
    }
  }

  /** What the candidate loop collects from the first `n` entries: frequent
      strings only, every frequent string seen so far, in first-seen order. */
  lemma {:induction false} CollectCandidatesSpec(xs: seq<string>, freq: int, n: nat)
    requires n <= |xs|
    ensures FrequentSeen(xs, freq, n, CollectCandidates(xs, freq, n))
    ensures CompleteUpTo(xs, freq, n, CollectCandidates(xs, freq, n))
    ensures FirstSeenOrder(xs, CollectCandidates(xs, freq, n))
  {
    if n > 0 {
      CollectCandidatesSpec(xs, freq, n - 1);
      CollectStep(xs, freq, n);
    }
  }

  /** The candidate list: the distinct strings occurring more than `freq` times, in first-seen order. */
  function Candidates(xs: seq<string>, freq: int): (r: seq<string>)
    ensures forall k :: 0 <= k < |r| ==> r[k] in xs && Count(xs, r[k]) > freq
    ensures forall s :: s in xs && Count(xs, s) > freq <==> s in r
    ensures forall p, q :: 0 <= p < q < |r| ==> FirstIndex(xs, r[p]) < FirstIndex(xs, r[q])
    ensures forall p, q :: 0 <= p < q < |r| ==> r[p] != r[q]
  {
    CollectCandidatesSpec(xs, freq, |xs|);
    CollectCandidates(xs, freq, |xs|)
  }

  /** Two candidates that may both stay in the list: farther apart than
      `refDist`, and neither ending in a stop word. */
  predicate Separated(a: string, b: string, refDist: int, stop: set<string>) {
    Levenshtein.Distance(a, b) > refDist && !HasStopTail(a, stop) && !HasStopTail(b, stop)
  }

  /** Overwrite slot `k` with the wildcard. */
  function Wildcard(slots: seq<Option<string>>, k: nat): (r: seq<Option<string>>)
    requires k < |slots|
    ensures |r| == |slots| && r[k] == None
    ensures forall l :: 0 <= l < |slots| && l != k ==> r[l] == slots[l]
  {
    slots[k := None]
  }

  /** One visit of the pair (i, j), `i < j`, whose precomputed distance is `dist`.
      When both slots are live, the less frequent of the two (the later one on a
      tie) is wildcarded if they are within `refDist`; otherwise, if the first
      ends in a stop word, the comparison is made with that word dropped; otherwise,
      if the second does, with its word dropped. The stop-word branches wildcard a
      slot without comparing distances again. */
  function Visit(slots: seq<Option<string>>, i: nat, j: nat, dist: int,
                 xs: seq<string>, refDist: int, stop: set<string>): (r: seq<Option<string>>)
    requires i < j < |slots|
    ensures |r| == |slots|
    ensures forall k :: 0 <= k < |slots| && k != i && k != j ==> r[k] == slots[k]
    ensures forall k :: 0 <= k < |slots| && r[k].Some? ==> r[k] == slots[k]
    ensures r[i] == slots[i] || r[j] == slots[j]
    ensures slots[i].None? || slots[j].None? ==> r == slots
    ensures slots[i].Some? && slots[j].Some? ==>
      (r == slots <==> dist > refDist && !HasStopTail(slots[i].value, stop) && !HasStopTail(slots[j].value, stop))
    ensures slots[i].Some? && slots[j].Some? && dist <= refDist ==>
      (r[i].None? <==> Count(xs, slots[i].value) < Count(xs, slots[j].value)) &&
      (r[j].None? <==> Count(xs, slots[i].value) >= Count(xs, slots[j].value))
    ensures slots[i].Some? && slots[j].Some? && dist > refDist && HasStopTail(slots[i].value, stop) ==>
      (r[i].None? <==> Count(xs, DropTrailingToken(slots[i].value)) < Count(xs, slots[j].value)) &&
      (r[j].None? <==> Count(xs, DropTrailingToken(slots[i].value)) >= Count(xs, slots[j].value))
    ensures slots[i].Some? && slots[j].Some? && dist > refDist && !HasStopTail(slots[i].value, stop)
            && HasStopTail(slots[j].value, stop) ==>
      (r[i].None? <==> Count(xs, slots[i].value) < Count(xs, DropTrailingToken(slots[j].value))) &&
      (r[j].None? <==> Count(xs, slots[i].value) >= Count(xs, DropTrailingToken(slots[j].value)))
  {
    if slots[i].Some? && slots[j].Some? then
      var a, b := slots[i].value, slots[j].value;
      if dist <= refDist then
        Wildcard(slots, if Count(xs, a) < Count(xs, b) then i else j)
      else if HasStopTail(a, stop) then
        var a' := DropTrailingToken(a);
        Wildcard(slots, if Count(xs, a') < Count(xs, b) then i else j)
      else if HasStopTail(b, stop) then
        var b' := DropTrailingToken(b);
        Wildcard(slots, if Count(xs, a) < Count(xs, b') then i else j)
      else
        slots
    else
      slots
  }

  /** The reference matrix: the distance between every ordered pair of candidates. */
  method DistanceMatrix(cands: seq<string>) returns (matrix: seq<seq<int>>)
    ensures |matrix| == |cands|
    ensures forall p :: 0 <= p < |cands| ==> |matrix[p]| == |cands|
    ensures forall p, q :: 0 <= p < |cands| && 0 <= q < |cands| ==>
      matrix[p][q] == Levenshtein.Distance(cands[p], cands[q])
  {
    var n := |cands|;
    matrix := [];
    var i := 0;
    while i < n
      invariant 0 <= i <= n
      invariant |matrix| == i
      invariant forall p :: 0 <= p < i ==> |matrix[p]| == n
      invariant forall p, q :: 0 <= p < i && 0 <= q < n ==>
        matrix[p][q] == Levenshtein.Distance(cands[p], cands[q])
    {
      var row: seq<int> := [];
      var j := 0;
      while j < n
        invariant 0 <= j <= n
        invariant |row| == j
        invariant forall q :: 0 <= q < j ==> row[q] == Levenshtein.Distance(cands[i], cands[q])
      {
        var d := Levenshtein.Compute(cands[i], cands[j]);
        row := row + [d];
        j := j + 1;
      }
      matrix := matrix + [row];
      i := i + 1;
    }
  }

  /** Every slot holds its own candidate or the wildcard. */
  predicate Shaped(slots: seq<Option<string>>, cands: seq<string>) {
    && |slots| == |cands|
    && forall k :: 0 <= k < |slots| ==> slots[k] == None || slots[k] == Some(cands[k])
  }

  /** Every visited pair (p, q) — q < j, or q == j and p < i — whose slots are
      both live is separated. */
  predicate SeparatedBefore(slots: seq<Option<string>>, cands: seq<string>, j: nat, i: nat,
                            refDist: int, stop: set<string>)
    requires |slots| == |cands|
  {
    forall p, q :: 0 <= p < q < |slots| && (q < j || (q == j && p < i)) && slots[p].Some? && slots[q].Some? ==>
      Separated(cands[p], cands[q], refDist, stop)
  }

  /** In a visit of the pair of slots `k` and `l`, slot `k` may lose to slot `l`:
      one of the two ends in a stop word, or they are within `refDist` and `l`
      is the more frequent spelling, or as frequent and earlier. */
  predicate LosesTo(cands: seq<string>, xs: seq<string>, k: nat, l: nat, refDist: int, stop: set<string>)
    requires k < |cands| && l < |cands|
  {
    || HasStopTail(cands[k], stop)
    || HasStopTail(cands[l], stop)
    || (&& Levenshtein.Distance(cands[k], cands[l]) <= refDist
        && (|| Count(xs, cands[k]) < Count(xs, cands[l])
            || (Count(xs, cands[k]) == Count(xs, cands[l]) && l < k)))
  }

  /** Candidate `k` has some other candidate it may lose to. */
  predicate Beaten(cands: seq<string>, xs: seq<string>, k: nat, refDist: int, stop: set<string>)
    requires k < |cands|
  {
    exists l :: 0 <= l < |cands| && l != k && LosesTo(cands, xs, k, l, refDist, stop)
  }

  /** Every wildcarded slot lost to some other slot. */
  predicate Justified(slots: seq<Option<string>>, cands: seq<string>, xs: seq<string>,
                      refDist: int, stop: set<string>)
    requires |slots| == |cands|
  {
    forall k :: 0 <= k < |slots| && slots[k].None? ==> Beaten(cands, xs, k, refDist, stop)
  }

  /** Some slot is live, unless there are none. */
  predicate Live(slots: seq<Option<string>>) {
    |slots| == 0 || exists k :: 0 <= k < |slots| && slots[k].Some?
  }

  /** A slot wildcarded by the visit of (i, j) lost to the other slot of the pair. */
  lemma VisitJustified(slots: seq<Option<string>>, cands: seq<string>, xs: seq<string>, i: nat, j: nat,
                       refDist: int, stop: set<string>)
    requires i < j < |slots|
    requires Shaped(slots, cands)
    requires Justified(slots, cands, xs, refDist, stop)
    ensures Justified(Visit(slots, i, j, Levenshtein.Distance(cands[i], cands[j]), xs, refDist, stop),
                      cands, xs, refDist, stop)
  {
    var r := Visit(slots, i, j, Levenshtein.Distance(cands[i], cands[j]), xs, refDist, stop);
    Levenshtein.Symmetric(cands[i], cands[j]);
    forall k | 0 <= k < |r| && r[k].None?
      ensures Beaten(cands, xs, k, refDist, stop)
    {
      if slots[k].Some? {
        if k == i {
          assert LosesTo(cands, xs, i, j, refDist, stop);
        } else {
          assert LosesTo(cands, xs, j, i, refDist, stop);
        }
      }
    }
  }

  /** A visit never wildcards the last live slot. */
  lemma VisitLive(slots: seq<Option<string>>, i: nat, j: nat, dist: int,
                  xs: seq<string>, refDist: int, stop: set<string>)
    requires i < j < |slots|
    requires Live(slots)
    ensures Live(Visit(slots, i, j, dist, xs, refDist, stop))
  {
    var r := Visit(slots, i, j, dist, xs, refDist, stop);
    var k :| 0 <= k < |slots| && slots[k].Some?;
    if k != i && k != j {
      assert r[k].Some?;
    } else if slots[i].Some? && slots[j].Some? {
      assert r[i].Some? || r[j].Some?;
    } else {
      assert r[k].Some?;
    }
  }

  /** One visit keeps the slots shaped, justified and live, and adds (i, j) to the separated pairs. */
  lemma VisitStep(slots: seq<Option<string>>, cands: seq<string>, xs: seq<string>, i: nat, j: nat,
                  refDist: int, stop: set<string>)
    requires i < j < |slots|
    requires Shaped(slots, cands)
    requires SeparatedBefore(slots, cands, j, i, refDist, stop)
    requires Justified(slots, cands, xs, refDist, stop)
    requires Live(slots)
    ensures Shaped(Visit(slots, i, j, Levenshtein.Distance(cands[i], cands[j]), xs, refDist, stop), cands)
    ensures SeparatedBefore(Visit(slots, i, j, Levenshtein.Distance(cands[i], cands[j]), xs, refDist, stop),
                            cands, j, i + 1, refDist, stop)
    ensures Justified(Visit(slots, i, j, Levenshtein.Distance(cands[i], cands[j]), xs, refDist, stop),
                      cands, xs, refDist, stop)
    ensures Live(Visit(slots, i, j, Levenshtein.Distance(cands[i], cands[j]), xs, refDist, stop))
  {
    VisitJustified(slots, cands, xs, i, j, refDist, stop);
    VisitLive(slots, i, j, Levenshtein.Distance(cands[i], cands[j]), xs, refDist, stop);
  }

  /** Every slot holds its own candidate: the slots before the pass. */
  function Unreduced(cands: seq<string>): (slots: seq<Option<string>>)
    ensures Shaped(slots, cands)
    ensures forall k :: 0 <= k < |slots| ==> slots[k].Some?
  {
    seq(|cands|, k requires 0 <= k < |cands| => Some(cands[k]))
  }

  /** The rest of the reduction pass, starting at the visit of (i, j): pairs
      are visited by ascending j, then ascending i < j, each against the slots
      as the earlier visits left them. */
  function Sweep(slots: seq<Option<string>>, cands: seq<string>, xs: seq<string>,
                 refDist: int, stop: set<string>, j: nat, i: nat): (r: seq<Option<string>>)
    requires |slots| == |cands|
    requires i <= j
    ensures |r| == |slots|
    decreases |cands| - j, j - i
  {
    if j >= |cands| then slots
    else if i == j then Sweep(slots, cands, xs, refDist, stop, j + 1, 0)
    else
      var next := Visit(slots, i, j, Levenshtein.Distance(cands[i], cands[j]), xs, refDist, stop);
      Sweep(next, cands, xs, refDist, stop, j, i + 1)
  }

  /** The whole reduction pass over the candidates, from the first pair (0, 1). */
  function Pass(cands: seq<string>, xs: seq<string>, refDist: int, stop: set<string>): seq<Option<string>> {
    Sweep(Unreduced(cands), cands, xs, refDist, stop, 1, 0)
  }

  /** The reduction pass with the precomputed matrix: the result is exactly
      `Pass`, the pairs visited by ascending j, then ascending i, each against
      the slots the earlier visits left. Every slot ends up holding its own
      candidate or the wildcard; two slots that are both still live are far
      apart and free of stop-word tails; every wildcarded slot lost to another
      slot, close to it and at least as frequent, or with a stop-word tail on
      one of the two; and at least one slot stays live. */
  method Reduce(cands: seq<string>, xs: seq<string>, refDist: int, stop: set<string>)
    returns (slots: seq<Option<string>>)
    ensures slots == Pass(cands, xs, refDist, stop)
    ensures Shaped(slots, cands)
    ensures forall p, q :: 0 <= p < q < |slots| && slots[p].Some? && slots[q].Some? ==>
      Separated(cands[p], cands[q], refDist, stop)
    ensures Justified(slots, cands, xs, refDist, stop)
    ensures Live(slots)
  {
    var n := |cands|;
    var matrix := DistanceMatrix(cands);
    slots := Unreduced(cands);
    assert n > 0 ==> slots[0].Some?;
    var j := 1;
    while j < n
      invariant 1 <= j
      invariant Shaped(slots, cands)
      invariant Sweep(slots, cands, xs, refDist, stop, j, 0) == Pass(cands, xs, refDist, stop)
      invariant SeparatedBefore(slots, cands, j, 0, refDist, stop)
      invariant Justified(slots, cands, xs, refDist, stop)
      invariant Live(slots)
      decreases n - j
    {
      var i := 0;
      while i < j
        invariant 0 <= i <= j < n
        invariant Shaped(slots, cands)
        invariant Sweep(slots, cands, xs, refDist, stop, j, i) == Pass(cands, xs, refDist, stop)
        invariant SeparatedBefore(slots, cands, j, i, refDist, stop)
        invariant Justified(slots, cands, xs, refDist, stop)
        invariant Live(slots)
      {
        VisitStep(slots, cands, xs, i, j, refDist, stop);
        slots := Visit(slots, i, j, matrix[i][j], xs, refDist, stop);
        i := i + 1;
      }
      j := j + 1;
    }
  }

  /** A slot wildcarded earlier in the pass cannot take a later slot with it:
      with `b` close to the more frequent `a`, and `c` far from `a`, the pass
      drops `b` and keeps `c`, however close `b` and `c` are. */
  lemma ChainKeepsFarEnd(a: string, b: string, c: string, xs: seq<string>, refDist: int, stop: set<string>)
    requires !HasStopTail(a, stop) && !HasStopTail(b, stop) && !HasStopTail(c, stop)
    requires Levenshtein.Distance(a, b) <= refDist < Levenshtein.Distance(a, c)
    requires Count(xs, a) >= Count(xs, b)
    ensures Pass([a, b, c], xs, refDist, stop) == [Some(a), None, Some(c)]
  {
    var cands := [a, b, c];
    var s0 := Unreduced(cands);
    var s1 := [Some(a), None, Some(c)];
    assert Visit(s0, 0, 1, Levenshtein.Distance(a, b), xs, refDist, stop) == s1;
    assert Visit(s1, 0, 2, Levenshtein.Distance(a, c), xs, refDist, stop) == s1;
    assert Visit(s1, 1, 2, Levenshtein.Distance(b, c), xs, refDist, stop) == s1;
    assert Sweep(s1, cands, xs, refDist, stop, 3, 0) == s1;
    assert Sweep(s1, cands, xs, refDist, stop, 2, 2) == s1;
    assert Sweep(s1, cands, xs, refDist, stop, 2, 1) == s1;
    assert Sweep(s1, cands, xs, refDist, stop, 2, 0) == s1;
    assert Sweep(s1, cands, xs, refDist, stop, 1, 1) == s1;
  }

  /** For a lone close pair without stop-word tails, the contract of `Reduce`
      leaves exactly the more frequent spelling. */
  lemma ClosePairKeepsFrequent(slots: seq<Option<string>>, a: string, b: string, xs: seq<string>,
                               refDist: int, stop: set<string>)
    requires Shaped(slots, [a, b])
    requires forall p, q :: 0 <= p < q < |slots| && slots[p].Some? && slots[q].Some? ==>
      Separated([a, b][p], [a, b][q], refDist, stop)
    requires Justified(slots, [a, b], xs, refDist, stop)
    requires Live(slots)
    requires Levenshtein.Distance(a, b) <= refDist
    requires !HasStopTail(a, stop) && !HasStopTail(b, stop)
    requires Count(xs, a) > Count(xs, b)
    ensures slots == [Some(a), None]
  {
    var cands := [a, b];
    Levenshtein.Symmetric(a, b);
    assert !LosesTo(cands, xs, 0, 1, refDist, stop);
    assert !Separated(cands[0], cands[1], refDist, stop);
  }

  /** `references_list`: the candidate list of the column's present values,
      reduced in one pass; the result is exactly `Pass` over them and keeps
      wildcard slots. */
  method ReferencesList(column: seq<Option<string>>, freq: int, refDist: int, stop: set<string>)
    returns (slots: seq<Option<string>>)
    ensures slots == Pass(Candidates(Present(column), freq), Present(column), refDist, stop)
    ensures Shaped(slots, Candidates(Present(column), freq))
    ensures forall p, q :: 0 <= p < q < |slots| && slots[p].Some? && slots[q].Some? ==>
      Separated(slots[p].value, slots[q].value, refDist, stop)
    ensures Justified(slots, Candidates(Present(column), freq), Present(column), refDist, stop)
    ensures Live(slots)
  {
    var xs := Present(column);
    var cands := Candidates(xs, freq);
    slots := Reduce(cands, xs, refDist, stop);
  }

  /** A string is present exactly when some entry holds it. */
  lemma PresentMembers(column: seq<Option<string>>)
    ensures forall s :: s in Present(column) <==> Some(s) in column
  {
    forall s
      ensures s in Present(column) <==> Some(s) in column
    {
      assert s in Present(column) <==> multiset(Present(column))[s] > 0;
      assert Some(s) in column <==> multiset(column)[Some(s)] > 0;
    }
  }

  /** The positions of the present entries of `column`, in order. */
  function PresentPositions(column: seq<Option<string>>): seq<nat> {
    if column == [] then []
    else
      var n := |column| - 1;
      PresentPositions(column[..n]) + (if column[n].Some? then [n] else [])
  }

  /** The positions `Present(column)` takes its values from: strictly
      increasing, each holding its value, and covering every present entry.
      So `Present` keeps the entries in order, repeated values included. */
  lemma {:induction false} PresentPositionsSpec(column: seq<Option<string>>)
    ensures |PresentPositions(column)| == |Present(column)|
    ensures forall k :: 0 <= k < |PresentPositions(column)| ==>
      PresentPositions(column)[k] < |column| && column[PresentPositions(column)[k]] == Some(Present(column)[k])
    ensures forall p, q :: 0 <= p < q < |PresentPositions(column)| ==>
      PresentPositions(column)[p] < PresentPositions(column)[q]
    ensures forall p :: 0 <= p < |column| && column[p].Some? ==> p in PresentPositions(column)
  {
    if column != [] {
      var n := |column| - 1;
      var init := column[..n];
      PresentPositionsSpec(init);
      assert column == init + [column[n]];
      PositionsSnoc(init, column[n], PresentPositions(init), Present(init));
    }
  }

  /** One more entry: the positions of `init` extended by the new one, when it
      is present, are the positions of `init + [last]`. */
  lemma PositionsSnoc(init: seq<Option<string>>, last: Option<string>, idx: seq<nat>, xs: seq<string>)
    requires |idx| == |xs|
    requires forall k :: 0 <= k < |idx| ==> idx[k] < |init| && init[idx[k]] == Some(xs[k])
    requires forall p, q :: 0 <= p < q < |idx| ==> idx[p] < idx[q]
    requires forall p :: 0 <= p < |init| && init[p].Some? ==> p in idx
    ensures var column := init + [last];
            var idx' := idx + (if last.Some? then [|init|] else []);
            var xs' := xs + (if last.Some? then [last.value] else []);
            && |idx'| == |xs'|
            && (forall k :: 0 <= k < |idx'| ==> idx'[k] < |column| && column[idx'[k]] == Some(xs'[k]))
            && (forall p, q :: 0 <= p < q < |idx'| ==> idx'[p] < idx'[q])
            && (forall p :: 0 <= p < |column| && column[p].Some? ==> p in idx')
  {
  }

  /** `Present` keeps the order of the entries: a relation that holds between
      every earlier and later present entry holds between every earlier and
      later value of the result. */
  lemma {:induction false} PresentKeepsOrder(column: seq<Option<string>>, rel: (string, string) -> bool)
    requires forall p, q :: 0 <= p < q < |column| && column[p].Some? && column[q].Some? ==>
      rel(column[p].value, column[q].value)
    ensures forall p, q :: 0 <= p < q < |Present(column)| ==> rel(Present(column)[p], Present(column)[q])
  {
    if column != [] {
      var init := column[..|column| - 1];
      var last := column[|column| - 1];
      PresentKeepsOrder(init, rel);
      var prev := Present(init);
      if last.Some? {
        assert forall p :: 0 <= p < |init| ==> init[p] == column[p];
        RelatedToAll(init, last.value, rel);
        assert Present(column) == prev + [last.value];
        OrderSnoc(prev, last.value, rel);
      } else {
        assert Present(column) == prev;
      }
    }
  }

  /** A value related to every present entry is related to every value of `Present`. */
  lemma RelatedToAll(column: seq<Option<string>>, v: string, rel: (string, string) -> bool)
    requires forall p :: 0 <= p < |column| && column[p].Some? ==> rel(column[p].value, v)
    ensures forall p :: 0 <= p < |Present(column)| ==> rel(Present(column)[p], v)
  {
    PresentMembers(column);
    forall p | 0 <= p < |Present(column)|
      ensures rel(Present(column)[p], v)
    {
      var k :| 0 <= k < |column| && column[k] == Some(Present(column)[p]);
    }
  }

  /** Appending a value related to every earlier one keeps a list ordered by `rel`. */
  lemma OrderSnoc(xs: seq<string>, v: string, rel: (string, string) -> bool)
    requires forall p, q :: 0 <= p < q < |xs| ==> rel(xs[p], xs[q])
    requires forall p :: 0 <= p < |xs| ==> rel(xs[p], v)
    ensures forall p, q :: 0 <= p < q < |xs + [v]| ==> rel((xs + [v])[p], (xs + [v])[q])
  {
    var r := xs + [v];
    forall p, q | 0 <= p < q < |r|
      ensures rel(r[p], r[q])
    {
      assert r[p] == xs[p];
      if q < |xs| {
        assert r[q] == xs[q];
      }
    }
  }

  /** Candidates in first-seen order that may both stay. */
  predicate InOrder(xs: seq<string>, refDist: int, stop: set<string>, a: string, b: string) {
    Separated(a, b, refDist, stop) && FirstIndex(xs, a) < FirstIndex(xs, b)
  }

  /** A value left in shaped slots is one of the candidates. */
  lemma LiveSlotsAreCandidates(slots: seq<Option<string>>, cands: seq<string>)
    requires Shaped(slots, cands)
    ensures forall s :: s in Present(slots) ==> s in cands
  {
    PresentMembers(slots);
    forall s | s in Present(slots)
      ensures s in cands
    {
      var l :| 0 <= l < |slots| && slots[l] == Some(s);
      assert s == cands[l];
    }
  }

  /** The values left in shaped, separated slots over candidates in first-seen
      order are themselves in first-seen order and pairwise separated. */
  lemma LiveInOrder(slots: seq<Option<string>>, cands: seq<string>, xs: seq<string>,
                    refDist: int, stop: set<string>)
    requires Shaped(slots, cands)
    requires FirstSeenOrder(xs, cands)
    requires forall p, q :: 0 <= p < q < |slots| && slots[p].Some? && slots[q].Some? ==>
      Separated(slots[p].value, slots[q].value, refDist, stop)
    ensures forall p, q :: 0 <= p < q < |Present(slots)| ==>
      InOrder(xs, refDist, stop, Present(slots)[p], Present(slots)[q])
  {
    forall p, q | 0 <= p < q < |slots| && slots[p].Some? && slots[q].Some?
      ensures InOrder(xs, refDist, stop, slots[p].value, slots[q].value)
    {
      assert slots[p].value == cands[p] && slots[q].value == cands[q];
    }
    PresentKeepsOrder(slots, (a, b) => InOrder(xs, refDist, stop, a, b));
  }

  /** Every candidate missing from `refs` lost to another candidate. */
  predicate AccountedFor(cands: seq<string>, xs: seq<string>, refs: seq<string>, refDist: int, stop: set<string>) {
    forall k :: 0 <= k < |cands| ==> cands[k] in refs || Beaten(cands, xs, k, refDist, stop)
  }

  /** A candidate whose slot was wildcarded lost to another candidate, and a
      live slot leaves at least one value. */
  lemma DroppedWereBeaten(slots: seq<Option<string>>, cands: seq<string>, xs: seq<string>,
                          refDist: int, stop: set<string>)
    requires Shaped(slots, cands)
    requires Justified(slots, cands, xs, refDist, stop)
    requires Live(slots)
    ensures AccountedFor(cands, xs, Present(slots), refDist, stop)
    ensures |cands| > 0 ==> |Present(slots)| > 0
  {
    PresentMembers(slots);
    forall k | 0 <= k < |cands| && cands[k] !in Present(slots)
      ensures Beaten(cands, xs, k, refDist, stop)
    {
      assert Some(cands[k]) !in slots;
      assert slots[k] == None;
    }
    if |cands| > 0 {
      var k :| 0 <= k < |slots| && slots[k].Some?;
      assert slots[k].value in Present(slots);
    }
  }

  /** The values left in reduced slots: candidates, in first-seen order and
      pairwise separated, accounting for every candidate, and not none when
      there are candidates. */
  lemma LiveValues(slots: seq<Option<string>>, cands: seq<string>, xs: seq<string>,
                   freq: int, refDist: int, stop: set<string>)
    requires forall k :: 0 <= k < |cands| ==> Count(xs, cands[k]) > freq
    requires Shaped(slots, cands)
    requires FirstSeenOrder(xs, cands)
    requires forall p, q :: 0 <= p < q < |slots| && slots[p].Some? && slots[q].Some? ==>
      Separated(slots[p].value, slots[q].value, refDist, stop)
    requires Justified(slots, cands, xs, refDist, stop)
    requires Live(slots)
    ensures forall k :: 0 <= k < |Present(slots)| ==> Present(slots)[k] in cands
    ensures forall k :: 0 <= k < |Present(slots)| ==> Count(xs, Present(slots)[k]) > freq
    ensures forall p, q :: 0 <= p < q < |Present(slots)| ==>
      InOrder(xs, refDist, stop, Present(slots)[p], Present(slots)[q])
    ensures AccountedFor(cands, xs, Present(slots), refDist, stop)
    ensures |cands| > 0 ==> |Present(slots)| > 0
  {
    LiveInOrder(slots, cands, xs, refDist, stop);
    LiveSlotsAreCandidates(slots, cands);
    DroppedWereBeaten(slots, cands, xs, refDist, stop);
  }

  /** The reference set handed to the autocorrector: the live slots of `Pass`
      over the candidates, wildcards dropped. Each occurs more than `freq` times, they are in first-seen order (hence
      distinct), and any two are far apart and free of stop-word tails. Every
      candidate that is not a reference lost to another candidate, and there is
      at least one reference when there is at least one candidate. */
  method SurvivingReferences(column: seq<Option<string>>, freq: int, refDist: int, stop: set<string>)
    returns (refs: seq<string>)
    ensures refs == Present(Pass(Candidates(Present(column), freq), Present(column), refDist, stop))
    ensures forall k :: 0 <= k < |refs| ==> refs[k] in Candidates(Present(column), freq)
    ensures forall k :: 0 <= k < |refs| ==> Count(Present(column), refs[k]) > freq
    ensures forall p, q :: 0 <= p < q < |refs| ==> InOrder(Present(column), refDist, stop, refs[p], refs[q])
    ensures AccountedFor(Candidates(Present(column), freq), Present(column), refs, refDist, stop)
    ensures |Candidates(Present(column), freq)| > 0 ==> |refs| > 0
  {
    var xs := Present(column);
    var cands := Candidates(xs, freq);
    var slots := ReferencesList(column, freq, refDist, stop);
    refs := Present(slots);
    LiveValues(slots, cands, xs, freq, refDist, stop);
  }

  /** The example column: three "Jyoti SHG", one "Joyti SHG", three "Unity Group". */
  const ExampleValues: seq<string> := ["Jyoti SHG", "Jyoti SHG", "Jyoti SHG", "Joyti SHG",
                                      "Unity Group", "Unity Group", "Unity Group"]

  /** Three of `a`, one of `b`, three of `c`, threshold 2: `b` is dropped. */
  lemma ThreeOneThree(a: string, b: string, c: string)
    requires a != b && b != c && a != c
    ensures Candidates([a, a, a, b, c, c, c], 2) == [a, c]
  {
    var xs := [a, a, a, b, c, c, c];
    assert Count(xs, a) == 3;
    assert Count(xs, b) == 1;
    assert Count(xs, c) == 3;
    assert CollectCandidates(xs, 2, 1) == [a];
    assert CollectCandidates(xs, 2, 2) == [a];
    assert CollectCandidates(xs, 2, 3) == [a];
    assert CollectCandidates(xs, 2, 4) == [a];
    assert CollectCandidates(xs, 2, 5) == [a, c];
    assert CollectCandidates(xs, 2, 6) == [a, c];
  }

  /** With a frequency threshold of 2, the rare misspelling is not a candidate. */
  lemma ExampleCandidates()
    ensures Candidates(ExampleValues, 2) == ["Jyoti SHG", "Unity Group"]
  {
    ThreeOneThree("Jyoti SHG", "Joyti SHG", "Unity Group");
  }

  /** "Jyoti SHG" ends in the stop word "shg" and is "Jyoti" without it. */
  lemma JyotiStopTail()
    ensures HasStopTail("Jyoti SHG", {"shg"})
    ensures DropTrailingToken("Jyoti SHG") == "Jyoti"
  {
    assert LastSpace("Jyoti SHG") == Some(5);
    assert TrailingToken("Jyoti SHG") == "SHG";
    assert Lower("SHG") == "shg";
  }

  /** The stop-word branch wildcards a slot however far apart the pair is: with
      "shg" a stop word, "Jyoti SHG" loses to "Unity Group" because the stripped
      "Jyoti" never occurs, whatever their distance. */
  lemma StopTailIgnoresDistance(dist: int)
    requires dist > 3
    ensures Visit([Some("Jyoti SHG"), Some("Unity Group")], 0, 1, dist, ExampleValues, 3, {"shg"})
         == [None, Some("Unity Group")]
  {
    JyotiStopTail();
    assert Count(ExampleValues, "Jyoti") == 0;
    assert Count(ExampleValues, "Unity Group") == 3;
  }
}

=== FILE: table.dfy ===
/** The table the cleaner works on: rows of cells, one designated target
    column and two identity columns. */
module Table {

  /** A spreadsheet cell: text, a number (integral here), or absent (NaN). */
  datatype Cell = Text(text: string) | Number(value: int) | Null

  /** A row: the two identity columns, the target column, and every other cell. */
  datatype Row = Row(id1: Cell, id2: Cell, target: Cell, rest: seq<Cell>)

  /** The identity of a row: two rows describe the same entity when their keys are equal. */
  datatype Key = Key(id1: Cell, id2: Cell, target: Cell)

  function KeyOf(row: Row): Key {
    Key(row.id1, row.id2, row.target)
  }

  function NullsIn(cells: seq<Cell>): (n: nat)
    ensures n <= |cells|
  {
    if cells == [] then 0 else (if cells[0].Null? then 1 else 0) + NullsIn(cells[1..])
  }

  /** The number of absent cells across the whole row (`isnull().sum()`). */
  function NullCount(row: Row): nat {
    NullsIn([row.id1, row.id2, row.target] + row.rest)
  }

  /** The target column of a table. */
  function Targets(rows: seq<Row>): (column: seq<Cell>)
    ensures |column| == |rows|
    ensures forall k :: 0 <= k < |rows| ==> column[k] == rows[k].target
  {
    seq(|rows|, k requires 0 <= k < |rows| => rows[k].target)
  }

  /** The table with its target column replaced by `column`, every other cell kept. */
  function WithTargets(rows: seq<Row>, column: seq<string>): (r: seq<Row>)
    requires |column| == |rows|
    ensures |r| == |rows|
    ensures forall k :: 0 <= k < |rows| ==>
      r[k] == Row(rows[k].id1, rows[k].id2, Text(column[k]), rows[k].rest)
  {
    seq(|rows|, k requires 0 <= k < |rows| => rows[k].(target := Text(column[k])))
  }
}

=== FILE: text.dfy ===
/** String helpers the matching code relies on: ASCII lower-casing, the
    "last space-separated token" of a name, and occurrence counting. */
module Text {
  import opened Wrappers

  /** ASCII lower-casing of one character; every other character is kept. */
  function LowerChar(c: char): char {
    if 'A' <= c <= 'Z' then (c as int + 32) as char else c
  }

  /** ASCII lower-casing of a string (Python `str.lower` restricted to ASCII). */
  function Lower(s: string): (r: string)
    ensures |r| == |s|
    ensures forall k :: 0 <= k < |s| ==> r[k] == LowerChar(s[k])
  {
    if s == [] then [] else [LowerChar(s[0])] + Lower(s[1..])
  }

  /** Position of the last space in `s`, if any. */
  function LastSpace(s: string): (r: Option<nat>)
    ensures r.None? <==> ' ' !in s
    ensures r.Some? ==> r.value < |s| && s[r.value] == ' ' && ' ' !in s[r.value + 1..]
  {
    if s == [] then None
    else if s[|s| - 1] == ' ' then Some(|s| - 1)
    else
      var r := LastSpace(s[..|s| - 1]);
      assert s == s[..|s| - 1] + [s[|s| - 1]];
      r
  }

  /** `s.split(' ')[-1]`: the text after the last space (all of `s` when it has none). */
  function TrailingToken(s: string): (t: string)
    ensures ' ' !in t
    ensures ' ' !in s ==> t == s
  {
    match LastSpace(s)
    case None => s
    case Some(k) => s[k + 1..]
  }

  /** `" ".join(s.split(' ')[:-1])`: the text before the last space. */
  function DropTrailingToken(s: string): (p: string)
    ensures ' ' in s ==> s == p + " " + TrailingToken(s)
    ensures ' ' !in s ==> p == ""
  {
    match LastSpace(s)
    case None => ""
    case Some(k) =>
      assert s == s[..k] + " " + s[k + 1..];
      s[..k]
  }

  /** The name has a space and its last token, lower-cased, is a stop word. */
  predicate HasStopTail(s: string, stop: set<string>) {
    ' ' in s && Lower(TrailingToken(s)) in stop
  }

  /** Python `list.count`: the number of occurrences of `x` in `xs`. */
  function Count(xs: seq<string>, x: string): nat {
    multiset(xs)[x]
  }
}

=== FILE: wrappers.dfy ===
/** The optional value used throughout the model: a missing table cell, and the
    wildcard slot of the reference list, are both `None`. */
module Wrappers {

  datatype Option<+T> = None | Some(value: T) {

    /** The wrapped value, or `default` when there is none (pandas `fillna`). */
    function GetOr(default: T): T {
      match this
      case Some(v) => v
      case None => default
    }
  }
}
